=== FILE: README.md ===
# PhotoView controller model

A Dafny model of the controller logic of the Gallery photo viewer's
`PhotoView` (`src/com/android/gallery3d/ui/PhotoView.java`). It covers:

- the loading-state machine (INIT, TIMEOUT, COMPLETE, FAIL). This includes
  the delayed SHOW_LOADING message and the read-once open-animation
  rectangle.
- the transition-mode machine (NONE, SWITCH_NEXT, SWITCH_PREVIOUS,
  SLIDE_IN_LEFT, SLIDE_IN_RIGHT, OPEN_ANIMATION). When a switch completes,
  the index change is committed and the screen-nails move between the tile
  view and the two neighbour slots.
- the neighbour-slot layout: `gapToSide`, `layoutScreenNails` and the
  `ScreenNailEntry` operations.
- gesture arbitration in `MyGestureListener`: swipe, snap, tap, double-tap,
  scroll, fling, pinch and up. The ignore-up latch and the pending flag of
  the extra-scaling cancellation are part of the state.
- `calculateMoveOutProgress`, `getScrollScale` and `ZInterpolator`, over
  exact rationals.

The view is an immutable `PhotoView.State`, and every method of the view is
a pure function from the old state to the new one.

- **Collaborators.** The position controller, tile view, data model, edge
  view and spinner are not modelled. What they report is passed in as a
  snapshot:
  - `Position` holds the rounded image bounds, the minimal-scale flag, the
    edges the image touches and the current scale.
  - `ModelView` holds the level count, the current image's screen-nail,
    the failure flag, the rotation, the size and the neighbours'
    screen-nails.
  - The tile view is reduced to the screen-nail it holds. When the current
    image is invalidated it takes the model's screen-nail; a switch moves
    screen-nails into and out of it.
  - Every call the view makes into them is appended to an effect log.
- **Handler queue.** The UI-thread handler is a sequence of pending messages:
  - `Send` appends a message;
  - `RemoveMessages` filters out one kind;
  - delivery removes one pending occurrence.
- **Exceptions.** A Java exception is a `Result` error. This covers a
  dereference of the absent model, an illegal slide-in direction and an
  illegal rotation.
- **Whole-view properties.** `Controller` wraps every entry point in one
  `Step` over an `Event`: a host or handler call (`HostStep`) or a gesture
  recognizer callback (`GestureStep`). `Run` applies a sequence of events. The
  properties proved over all runs are:
  - the pending messages agree with the flags they serve;
  - the loading transitions are only the legal ones;
  - screen-nail ownership stays exclusive while the model hands over fresh
    screen-nails: the tile view and the two slots pairwise hold different
    handles, which `ApartIsExclusive` shows is the same as no handle
    occurring twice among them;
  - every index change the view commits to the model (`next()`,
    `previous()` or `jumpTo`) is accounted for: by a completed switch, a
    fling that interrupts a switch, or a jump accepted outside a transition.

Modules: `Outcomes` (Option/Result), `MessageQueue`, `Geometry`,
`ScreenNails`, `RealDivision` (helper lemmas and `Abs`), `MoveOut`, `PhotoView`,
`Gestures`, `Controller`, `Scenarios`.

## Model

| member | source | states |
|---|---|---|
| MessageQueue.Send | src/com/android/gallery3d/ui/PhotoView.java:283-284 | a sent message is pending afterwards, its kind's count rises by exactly one, and no other kind's count or earlier message changes; as a multiset the queue gains exactly that message |
| MessageQueue.RemoveMessages | src/com/android/gallery3d/ui/PhotoView.java:282 | afterwards no message of the kind is pending; exactly the messages of other kinds remain, and their counts are unchanged |
| MessageQueue.Take | src/com/android/gallery3d/ui/PhotoView.java:125-126 | delivering a pending message removes exactly one occurrence of that very message (as a multiset, the queue loses just it), and adds no message |
| Geometry.GapToSide | src/com/android/gallery3d/ui/PhotoView.java:328-330 | the gap is never negative; when the image fits, twice the gap is the leftover width rounded down to even; an image that overflows, or leaves under two pixels spare, gets gap 0 |
| Geometry.JavaDivTruncates | src/com/android/gallery3d/ui/PhotoView.java:329 | Java integer division truncates toward zero: it is odd in the dividend and equals the floor on non-negative dividends |
| Geometry.RotationFamilies | src/com/android/gallery3d/ui/PhotoView.java:699-701 | rotations 90 and 270 swap the displayed width and height; 0 and 180 do not |
| ScreenNails.UpdateScreenNail | src/com/android/gallery3d/ui/PhotoView.java:714-724 | the slot is enabled exactly when given a screen-nail; the old handle is paused exactly when it was present and differs from the new one; rotation and draw size are taken from a new handle and otherwise kept |
| ScreenNails.ReleaseScreenNail | src/com/android/gallery3d/ui/PhotoView.java:726-730 | the slot's handle is returned to the caller and the slot keeps no reference; every other field, `mEnabled` included, is unchanged |
| ScreenNails.LayoutRightEdgeAt | src/com/android/gallery3d/ui/PhotoView.java:732-736 | the slot's centre is x less half its rotated width, rounded toward zero, so its right edge is at x up to the rounding of half an odd width; the slot is visible iff x > 0 |
| ScreenNails.LayoutLeftEdgeAt | src/com/android/gallery3d/ui/PhotoView.java:738-742 | the slot's centre is x plus half its rotated width, rounded toward zero, so its left edge is at x up to the rounding of half an odd width; the slot is visible iff x < view width |
| ScreenNails.EntryGapToSide | src/com/android/gallery3d/ui/PhotoView.java:744-748 | an entry's gap is the view's gap for its on-screen width (height when rotated a quarter turn), and is never negative |
| MoveOut.MoveOutProgress | src/com/android/gallery3d/ui/PhotoView.java:811-841 | progress is -1 when the object's left edge reaches the view width and 1 when its right edge reaches 0; it is 0 while the object fills the view; it is negative exactly when the object has moved right; it lies in [-1, 1] while the object overlaps the view |
| MoveOut.NarrowBounds | src/com/android/gallery3d/ui/PhotoView.java:817-824 | the narrow-object formula reaches -1 at left = viewWidth and 1 at left = -w, is negative iff the centre is right of the view's centre, and stays in [-1, 1] in between |
| MoveOut.ContinuousAtViewWidth | src/com/android/gallery3d/ui/PhotoView.java:811-841 | the narrow formula and the wide-object branches agree when the object is exactly as wide as the view |
| MoveOut.MovingRightLowersProgress | src/com/android/gallery3d/ui/PhotoView.java:811-841 | shifting the object right never increases its progress |
| MoveOut.Clamp | src/com/android/gallery3d/ui/PhotoView.java:185 | the clamped value lies in [lo, hi], equals the input inside the range, and equals the nearer bound outside it |
| MoveOut.TileProgress | src/com/android/gallery3d/ui/PhotoView.java:180-185 | the tile view's progress is in [-1, 1]; it equals the raw progress while the image overlaps the view, is -1 once the image is past the right edge and 1 once it is past the left edge |
| MoveOut.ZInterpolation | src/com/android/gallery3d/ui/PhotoView.java:865-876 | the perspective curve maps 0 to 0 and 1 to 1, and keeps [0, 1] inside [0, 1] |
| MoveOut.ScrollScale | src/com/android/gallery3d/ui/PhotoView.java:852-858 | the scale is 1 at rest and 0.74 once the image is fully out, and stays in [0.74, 1] in between |
| MoveOut.ScrollScaleSymmetric | src/com/android/gallery3d/ui/PhotoView.java:852-858 | the scale depends only on how far the image has moved, not on the direction |
| PhotoView.UpdateLoadingState | src/com/android/gallery3d/ui/PhotoView.java:266-286 | content present: COMPLETE, no SHOW_LOADING pending. Else a failed load: FAIL, none pending and the open rectangle dropped. Else, outside INIT: INIT with exactly one SHOW_LOADING pending (250 ms). Already INIT: nothing changes. Never TIMEOUT, always a legal transition, and the timer bookkeeping is kept |
| PhotoView.ShowLoadingArrived | src/com/android/gallery3d/ui/PhotoView.java:131-140 | only INIT moves to TIMEOUT, starting the spinner and dropping the open rectangle; in every other state the message does nothing; TIMEOUT is never entered from COMPLETE or FAIL |
| PhotoView.SwitchToNextImage | src/com/android/gallery3d/ui/PhotoView.java:648-656 | the previous slot takes the tile view's screen-nail, the tile view takes the next slot's, the next slot holds none, and exactly one index change (`next()`) is committed, last |
| PhotoView.SwitchToNextMovesNails | src/com/android/gallery3d/ui/PhotoView.java:648-656 | the switch is a move: the handles held afterwards, added to the old previous one, are exactly the handles held before |
| PhotoView.SwitchToNextKeepsDistinct | src/com/android/gallery3d/ui/PhotoView.java:648-656 | when no handle was held twice, none is afterwards, and the old previous handle, if any, is paused |
| PhotoView.SwitchToPreviousImage | src/com/android/gallery3d/ui/PhotoView.java:658-666 | the mirror image of the switch to next, committing exactly one `previous()`, last |
| PhotoView.SwitchToPreviousMovesNails | src/com/android/gallery3d/ui/PhotoView.java:658-666 | the mirror image of the move on a switch to next: only the old next handle leaves the owners |
| PhotoView.SwitchToPreviousKeepsDistinct | src/com/android/gallery3d/ui/PhotoView.java:658-666 | the mirror image: exclusive ownership is kept and the dropped next handle is paused |
| PhotoView.ApartIsExclusive | src/com/android/gallery3d/ui/PhotoView.java:714-730 | owners that pairwise hold different screen-nails are exactly owners among whom no screen-nail occurs twice, counted as a multiset |
| PhotoView.OnTransitionComplete | src/com/android/gallery3d/ui/PhotoView.java:672-682 | the mode always returns to NONE. After SWITCH_NEXT with a model, the previous slot holds the tile view's screen-nail, the tile view the next slot's, the next slot none, the old previous handle is paused and `next()` is committed once, last; SWITCH_PREVIOUS mirrors this with `previous()`. Only the three handles, the mode and the log change: the model, rotation, width, listener, latch, flags, queue and rectangle are kept. Nothing else happens after a slide-in, the open animation, NONE, or with no model |
| PhotoView.TransitionCompleteKeepsDistinct | src/com/android/gallery3d/ui/PhotoView.java:672-682 | completing any transition never makes two owners hold the same screen-nail |
| PhotoView.NotifyTransitionComplete | src/com/android/gallery3d/ui/PhotoView.java:668-670 | posts exactly one completion message and changes nothing else |
| PhotoView.HandleMessage | src/com/android/gallery3d/ui/PhotoView.java:125-150 | the queue loses exactly the delivered message, as a multiset. Completion resets the mode and commits only a switch. SHOW_LOADING moves only INIT to TIMEOUT, and no other kind touches the loading state or the open rectangle. CANCEL_EXTRA_SCALING cancels the scale, leaves the extra range and clears the pending flag, changing nothing else. The timer bookkeeping is kept |
| PhotoView.UpdateScreenNailEntry | src/com/android/gallery3d/ui/PhotoView.java:221-229 | during a switch the update is ignored; otherwise the slot takes the handle and is enabled iff it is present, and the other slot is untouched |
| PhotoView.LayoutScreenNails | src/com/android/gallery3d/ui/PhotoView.java:346-371 | an enabled previous slot's right edge sits at left - (96 + max(gap, its gap)), and the next slot's left edge at right + (96 + max(gap, its gap)); each is at least IMAGE_GAP plus either gap away from the image; visible iff the facing edge is inside the view; disabled slots are untouched; afterwards the slots are laid out for these bounds |
| PhotoView.LayoutIdempotent | src/com/android/gallery3d/ui/PhotoView.java:346-371 | laying out twice with the same bounds gives the same slots as laying out once |
| PhotoView.SetPosition | src/com/android/gallery3d/ui/PhotoView.java:205-219 | a rotation other than 0, 90, 180 or 270 raises before anything moves; otherwise the tile view is placed and the slots are laid out as above, and nothing else changes |
| PhotoView.StopCurrentSwipingIfNeeded | src/com/android/gallery3d/ui/PhotoView.java:438-449 | a switch in flight first has its animation stopped (`stopAnimation()` is the first call made), then the mode becomes NONE, the screen-nails move as on completing that switch and its index change is committed once, last; only the three handles, the mode and the log change, so the rectangle, listener, rotation and the slots' flags and offsets are kept; any other mode is left alone |
| PhotoView.StopSwipingKeepsDistinct | src/com/android/gallery3d/ui/PhotoView.java:438-449 | committing an interrupted switch never duplicates a screen-nail handle |
| PhotoView.SwipeImages | src/com/android/gallery3d/ui/PhotoView.java:451-490 | false with nothing changed outside NONE/SWITCH_*, or when a vertical fling on a zoomed image is kept for scrolling. A swipe that starts leaves the mode SWITCH_NEXT after a fling faster than -300 px/s with the next slot enabled, or SWITCH_PREVIOUS after one faster than 300 px/s with the previous slot enabled, and its last call slides the image to that neighbour's centre: its offset less half the view width. A swipe that does not start leaves the mode as it was, or NONE once a switch in flight is committed. It starts exactly when the fling points at a neighbour that is enabled after that commit |
| PhotoView.SwipeFrame | src/com/android/gallery3d/ui/PhotoView.java:451-490 | a fling that interrupts no switch changes at most the mode and the log, so a fling that starts nothing changes nothing else; one that interrupts a switch changes, beyond committing that switch, at most the mode and the log |
| PhotoView.SwipeCommits | src/com/android/gallery3d/ui/PhotoView.java:451-490 | an index change is committed only when a switch in flight is interrupted, and then exactly once |
| PhotoView.SwipeKeepsDistinct | src/com/android/gallery3d/ui/PhotoView.java:451-490 | swiping never duplicates a screen-nail handle |
| PhotoView.SnapToNeighborImage | src/com/android/gallery3d/ui/PhotoView.java:492-517 | fires iff the mode is NONE and the image was dragged past 256 + gap toward an enabled neighbour, switching toward that neighbour; it slides to the neighbour's centre and commits nothing |
| PhotoView.SnapsExclusive | src/com/android/gallery3d/ui/PhotoView.java:500-514 | a release never qualifies for both neighbours at once: revealing one by more than 256 + gap leaves the other side short of it, so testing the next image first never overrides the previous one |
| PhotoView.SetModel | src/com/android/gallery3d/ui/PhotoView.java:165-170 | the same model is a no-op; a different one reaches the tile view and, when present, resets the image size |
| PhotoView.SetPhotoTapListener | src/com/android/gallery3d/ui/PhotoView.java:172-174 | only the listener changes |
| PhotoView.NotifyImageInvalidated | src/com/android/gallery3d/ui/PhotoView.java:232-264 | -1 and 1 refresh that slot from the model outside a switch (enabled iff it gets a screen-nail), leave the other slot's handle, size and flags and the tile view's screen-nail alone, and leave both slots laid out for the current bounds; nothing but the slots and the log changes. 0 gives the tile view the model's screen-nail, refreshes the rotation, reports the size (width and height swapped on a quarter turn) and re-evaluates loading, with both slots untouched. Other values are ignored; with no model, -1, 0 and 1 raise |
| PhotoView.RefreshCurrentImage | src/com/android/gallery3d/ui/PhotoView.java:247-260 | the tile view takes the model's screen-nail and is told to re-read it; the rotation is the model's; the size is reported, width and height swapped on a quarter turn; loading, queue and open rectangle end as `updateLoadingState` leaves them; the slots and everything else are untouched and nothing is committed |
| PhotoView.RefreshNeighbors | src/com/android/gallery3d/ui/PhotoView.java:288-296 | outside a switch both slots take the model's neighbour screen-nails, or none when there is no model, and are enabled iff they get one; during a switch no slot changes its handle; afterwards both are laid out for the current bounds; nothing but the slots and the log changes, and nothing is committed |
| PhotoView.NotifyModelInvalidated | src/com/android/gallery3d/ui/PhotoView.java:288-307 | both slots take the model's neighbour screen-nails outside a switch and keep their handles during one, and are left laid out for the current bounds; the tile view takes the model's screen-nail and the rotation is refreshed; the loading state, queue and open rectangle end as `updateLoadingState` leaves them; the mode, model, latch, flags, listener and width are untouched; with no model the call raises |
| PhotoView.ModelInvalidatedReportsImage | src/com/android/gallery3d/ui/PhotoView.java:305 | with a model present, the call tells the tile view to re-read the model and reports the current image's size, swapped on a quarter turn |
| PhotoView.JumpTo | src/com/android/gallery3d/ui/PhotoView.java:624-628 | refused (false, no change) during a transition; otherwise forwarded to the model, raising when there is none, and counted as one index change |
| PhotoView.StartSlideInAnimation | src/com/android/gallery3d/ui/PhotoView.java:634-646 | directions 1 and 2 enter SLIDE_IN_RIGHT and SLIDE_IN_LEFT after stopping the animation; any other direction raises |
| PhotoView.OpenAnimationStarted | src/com/android/gallery3d/ui/PhotoView.java:906-908 | only the mode changes, to OPEN_ANIMATION |
| PhotoView.Pause | src/com/android/gallery3d/ui/PhotoView.java:878-885 | leaves every transition, and both slots are disabled and drop (pause) their screen-nails, so only the tile view's is still owned; apart from the slots, the mode and the log nothing changes: loading, pending messages, open rectangle, latch and model are kept |
| PhotoView.Resume | src/com/android/gallery3d/ui/PhotoView.java:887-889 | only asks the tile view for its textures |
| PhotoView.SetOpenAnimationRect | src/com/android/gallery3d/ui/PhotoView.java:891-893 | only the rectangle changes |
| PhotoView.RetrieveOpenAnimationRect | src/com/android/gallery3d/ui/PhotoView.java:900-904 | returns the stored rectangle and forgets it |
| PhotoView.Initial | src/com/android/gallery3d/ui/PhotoView.java:90-158 | a new view is in loading COMPLETE with no transition, no model, nothing pending, no latch, both slots disabled and no screen-nail held, so the timer bookkeeping holds and ownership is exclusive from the start |
| PhotoView.IsInTransition | src/com/android/gallery3d/ui/PhotoView.java:910-912 | a transition is running exactly while a switch, a slide-in or the open animation is |
| Gestures.TruncateToInt | src/com/android/gallery3d/ui/PhotoView.java:525 | Java's `(int)` cast of a float rounds toward zero |
| Gestures.MaxReal | src/com/android/gallery3d/ui/PhotoView.java:539 | `Math.max` of two non-NaN floats: the result is one of the two and at least both |
| Gestures.OnSingleTapUp | src/com/android/gallery3d/ui/PhotoView.java:523-528 | reports the truncated tap point to the listener, if any, and changes nothing else |
| Gestures.OnDoubleTap | src/com/android/gallery3d/ui/PhotoView.java:531-544 | ignored during a transition; otherwise sets the ignore-up latch and, from an unmagnified or minimal image, zooms in at the tap point to exactly the larger of 1.5 and 1.5 times the current scale, or else resets to the full view |
| Gestures.OnScroll | src/com/android/gallery3d/ui/PhotoView.java:547-556 | ignored during a transition; otherwise scrolls, telling the controller which neighbours exist |
| Gestures.OnFling | src/com/android/gallery3d/ui/PhotoView.java:559-568 | a swipe takes precedence and sets the latch; with a transition still active nothing more happens; otherwise the mode stays NONE, the image flings after what the swipe attempt left, slots and tile view included, and the latch is set iff it did; commits only by interrupting a switch |
| Gestures.PlainFlingFrame | src/com/android/gallery3d/ui/PhotoView.java:559-568 | a fling that neither starts nor interrupts a switch changes at most the ignore-up latch and the log |
| Gestures.OnScaleBegin | src/com/android/gallery3d/ui/PhotoView.java:571-575 | refused during a transition, otherwise begins scaling |
| Gestures.OnScale | src/com/android/gallery3d/ui/PhotoView.java:578-598 | the event is always consumed. NaN, infinity or a transition change nothing. Otherwise the image is scaled, the extra-range flag is switched only when it flips, the pending flag ends equal to out-of-range, and only the queue and that flag may change besides the log. The timer bookkeeping is kept |
| Gestures.OnScaleTimer | src/com/android/gallery3d/ui/PhotoView.java:578-598 | other message kinds are untouched, and the queue is untouched unless the range flips; stepping out of range arms exactly one more 700 ms cancellation; stepping back in removes every pending one |
| Gestures.OnScaleEnd | src/com/android/gallery3d/ui/PhotoView.java:601-604 | ends the pinch and then snaps; a pending cancellation stays armed |
| Gestures.OnDown | src/com/android/gallery3d/ui/PhotoView.java:607-608 | does nothing; the ignore-up latch is kept |
| Gestures.OnUp | src/com/android/gallery3d/ui/PhotoView.java:611-621 | the latch always ends cleared; a set latch swallows the event after the edge glow is released; otherwise a snap starts a switch, or failing that with no transition the controller gets `up()`; no timer or loading state changes and nothing is committed |
| Gestures.OnUpReleasesPosition | src/com/android/gallery3d/ui/PhotoView.java:611-621 | the first call made is always the edge-glow release, and `up()` reaches the controller iff the latch was clear, no transition runs and neither neighbour qualifies for a snap |
| Controller.HostStep | src/com/android/gallery3d/ui/PhotoView.java:125-150 | a host or handler call raises only by dereferencing an absent model, on an illegal rotation or on an illegal slide-in direction; otherwise it extends the log, keeps the timer bookkeeping, moves loading only along the code's transitions (TIMEOUT only by SHOW_LOADING in INIT), and commits one index change exactly for a completion after a switch or a jump accepted outside a transition |
| Controller.GestureStep | src/com/android/gallery3d/ui/PhotoView.java:519-622 | a recognizer callback raises only when a fling would commit a switch with no model; otherwise it extends the log, leaves loading alone, keeps the timer bookkeeping, and commits once exactly when a fling interrupts a switch |
| Controller.Step | src/com/android/gallery3d/ui/PhotoView.java:267-271 | every call keeps the timer bookkeeping and extends the log. Loading moves only along the code's transitions, which are the listed ones plus COMPLETE and FAIL to each other. TIMEOUT is entered only by delivering SHOW_LOADING in INIT. An index change (`next()`, `previous()` or `jumpTo`) is committed only by a completed or interrupted switch or an accepted jump, and then exactly once. Only host calls and a fling with no model raise |
| Controller.RunKeepsInv | src/com/android/gallery3d/ui/PhotoView.java:583-596 | along any sequence of calls, one SHOW_LOADING is pending exactly in INIT and one cancellation exactly while it is pending |
| Controller.ReachableTimers | src/com/android/gallery3d/ui/PhotoView.java:101 | from a new view (loading COMPLETE), at most one timer of each kind is ever pending, and none for the spinner once it shows |
| Controller.RunCommits | src/com/android/gallery3d/ui/PhotoView.java:672-682 | the index changes in a run's log are exactly its completed and interrupted switches and its accepted jumps |
| Controller.HostStepKeepsDistinct | src/com/android/gallery3d/ui/PhotoView.java:125-307 | no host or handler call makes two owners hold the same screen-nail, provided the model hands over fresh ones |
| Controller.GestureKeepsNails | src/com/android/gallery3d/ui/PhotoView.java:519-622 | every recognizer callback but a fling leaves all three screen-nail handles where they were |
| Controller.GestureStepKeepsDistinct | src/com/android/gallery3d/ui/PhotoView.java:519-622 | no recognizer callback makes two owners hold the same screen-nail |
| Controller.StepKeepsDistinct | src/com/android/gallery3d/ui/PhotoView.java:726-730 | no call makes two owners hold the same screen-nail, provided the model hands over fresh ones |
| Controller.RunKeepsDistinct | src/com/android/gallery3d/ui/PhotoView.java:648-666 | screen-nail ownership stays exclusive along every run in which the model hands over fresh screen-nails at each step |
| Controller.ImageInvalidatedKeepsDistinct | src/com/android/gallery3d/ui/PhotoView.java:234-259 | refreshing one slot, or the tile view, keeps ownership exclusive when the screen-nail the model hands over is fresh |
| Controller.ModelInvalidatedKeepsDistinct | src/com/android/gallery3d/ui/PhotoView.java:288-307 | refreshing both slots and the tile view keeps ownership exclusive when the screen-nails the model hands over are fresh |
| Controller.DeliverKeepsDistinct | src/com/android/gallery3d/ui/PhotoView.java:125-150 | delivering any message keeps ownership exclusive |
| Controller.PauseKeepsDistinct | src/com/android/gallery3d/ui/PhotoView.java:878-885 | pausing only drops screen-nails |
| Controller.FlingKeepsDistinct | src/com/android/gallery3d/ui/PhotoView.java:559-568 | a fling moves screen-nails only through its swipe |
| Scenarios.FlingAtMinimalScaleSwitchesNext | src/com/android/gallery3d/ui/PhotoView.java:470-478 | a -400 px/s fling on a minimal-scale image with a next image starts SWITCH_NEXT, sets the latch and commits nothing yet |
| Scenarios.FlingThenUpIsSwallowed | src/com/android/gallery3d/ui/PhotoView.java:611-616 | the up event after that fling only releases the edge glow and clears the latch |
| Scenarios.RepeatedOverscaleArmsOneTimer | src/com/android/gallery3d/ui/PhotoView.java:583-589 | two out-of-range pinch steps leave exactly one cancellation pending |
| Scenarios.CentredNarrowImage | src/com/android/gallery3d/ui/PhotoView.java:819-823 | bounds [100, 900] in a 1000 px view give progress 0 |
| Scenarios.NarrowImagePastRightEdge | src/com/android/gallery3d/ui/PhotoView.java:180-185 | bounds [1100, 1900] in a 1000 px view take the narrow branch (raw -10/9), and the tile view's progress is clamped to -1 |
| Scenarios.CompleteCanFail | src/com/android/gallery3d/ui/PhotoView.java:267-279 | COMPLETE moves straight to FAIL, a transition the comment beside the code does not list |
| Scenarios.OpenRectReadOnce | src/com/android/gallery3d/ui/PhotoView.java:900-904 | a stored rectangle is returned once, and a second retrieval returns none |
| Scenarios.WaitingForContent | src/com/android/gallery3d/ui/PhotoView.java:280-285 | a model attached without content leaves the view in INIT with one SHOW_LOADING (250 ms) pending, still holding the open rectangle |
| Scenarios.SpinnerAfterDelay | src/com/android/gallery3d/ui/PhotoView.java:131-140 | delivering that message starts the spinner, enters TIMEOUT and drops the open rectangle |

## Where the model follows the code over its comments

- **Loading transitions.** The comment at lines 267-271 lists COMPLETE → INIT
  and FAIL → INIT only. The code can also take COMPLETE → FAIL and
  FAIL → COMPLETE. `PhotoView.LoadingStep` is the code's relation, and
  `Scenarios.CompleteCanFail` exhibits the omitted transition.
- **Pinch end.** `onScaleEnd` does not remove a pending CANCEL_EXTRA_SCALING
  message. The 700 ms cancellation still fires after the fingers lift.
- **Press.** `onDown` is empty, so pressing does not reset the ignore-up
  latch. Only `onUp` clears it.
- **Released slots.** `releaseScreenNail` leaves `mEnabled` as it was. After
  a switch, the emptied slot still reads as enabled until it is refreshed.
- **Absent model.** `notifyModelInvalidated` with no model still calls
  `updateLoadingState`, which reads the absent model's level count, so the
  call always raises. `PhotoView.NotifyModelInvalidated` states this as an
  error result.

## Left out

- Rendering: `render`, `renderMessage` and `ScreenNailEntry.draw`. These are
  GL drawing, as is `setTileViewPosition`'s placement of the tile view
  (centre, inverse coordinates, alpha and scale), which is logged only as
  `TilePosition`.
- `getScrollAlpha`: it goes through `AccelerateInterpolator`, a float power
  curve.
- `ScreenNailEntry.updateDrawingSize`: it rounds a float minimal scale
  supplied by the position controller. Draw width and height are given
  integers.
- `onLayout`, `onTouch`, `isDown`, `showVideoPlayIcon` and
  `notifyOnNewImage`. These are pass-throughs to collaborators or display
  flags; `notifyOnNewImage` appears only as its `setImageSize(0, 0)` effect.
- The internals of the collaborators (PositionController, TileImageView,
  GestureRecognizer, EdgeView, the Model). Their answers are parameters and
  their calls are logged. TileImageView is not part of this model: its
  `notifyModelInvalidated` is taken to adopt the model's current
  screen-nail, as the comment at line 248 of `PhotoView.java` relies on for
  the image size, and what it does with the handle it held before is not
  modelled. `setModel` is not taken to change the tile view's screen-nail.
- SynchronizedHandler threading and message timing. Delays are recorded but
  not simulated, and any pending message may be delivered next.
- `src/com/android/camera/one/v2/sharedimagereader/SharedImageReaderFactory.java`:
  pure dependency wiring with no behaviour to state.
- Java `float` arithmetic is modelled as exact `real`. Java's saturation of
  out-of-range `(int)` casts and 32-bit overflow of the layout sums are not
  modelled.
- MoveOut.MoveOutProgress: requires viewWidth > 0 and left <= right. A
  zero-width view makes the Java float division give an infinity or NaN,
  which the model does not represent.
- PhotoView.StopCurrentSwipingIfNeeded, PhotoView.SwipeImages and
  Gestures.OnFling: require that a switch in flight has a model, because the
  commit dereferences it. `Controller.Step` covers the other case: a fling
  that would commit with no model raises, and any other fling in that state
  changes nothing.
- Controller.StepKeepsDistinct: requires the data model to hand over
  screen-nails, for the slots and for the tile view, that the view does not
  already hold elsewhere. The source relies on this and cannot guarantee it
  itself. Controller.RunKeepsDistinct, Controller.ImageInvalidatedKeepsDistinct
  and Controller.ModelInvalidatedKeepsDistinct carry the same condition.
- Gestures.TruncateToInt: takes a finite coordinate. Java's `(int)` of a
  NaN tap coordinate gives 0, and the recognizer's coordinates are modelled
  as plain reals that cannot be NaN.
- A raising call ends a `Run`. State changes the source makes before the
  exception, such as the slot updates in `notifyModelInvalidated` with no
  model, are not kept.

=== FILE: controller.dfy ===
/** The view driven as a whole. Every entry point that the host activity,
    the UI-thread handler or the gesture recognizer can call is an `Event`;
    `Step` applies one of them and `Run` a sequence of them, stopping at the
    first exception. The lemmas state what holds along any such sequence:
    the delayed-message bookkeeping, the legal loading transitions, the
    exclusive ownership of screen-nails and the accounting of index
    changes committed to the data model. */
module Controller {
  import opened Outcomes
  import opened MessageQueue
  import opened ScreenNails
  import opened PhotoView
  import opened Gestures

  /** Calls made by the host activity and by the UI-thread handler. */
  datatype HostCall =
    | AttachModel(model: Option<nat>)
    | AttachTapListener(present: bool)
    | ImageInvalidated(which: int, src: ModelView, pos: Position)
    | ModelInvalidated(src: ModelView, pos: Position)
    | Reposition(pos: Position)
    | SignalTransitionComplete
    | Deliver(message: Message)
    | Jump(index: int)
    | SlideIn(direction: int)
    | OpenAnimationBegins
    | PauseView
    | ResumeView
    | StoreOpenRect(rect: Option<Rect>)
    | TakeOpenRect

  /** Callbacks of the gesture recognizer. */
  datatype GestureCall =
    | TapUp(x: real, y: real)
    | DoubleTap(x: real, y: real, pos: Position)
    | Drag(dx: real, dy: real)
    | Fling(vx: real, vy: real, pos: Position, flung: bool)
    | PinchBegin(focusX: real, focusY: real)
    | Pinch(focusX: real, focusY: real, factor: Float, outOfRange: bool)
    | PinchEnd(pos: Position)
    | Press
    | Release(pos: Position)

  datatype Event = Host(call: HostCall) | Gesture(gesture: GestureCall)

  /** The handler only delivers messages that are pending. */
  predicate Enabled(s: State, e: Event)
  {
    e.Host? && e.call.Deliver? ==> e.call.message in s.queue
  }

  /** Delivery of the completion signal for a switch while a model is
      attached commits an index change, and so does a jump accepted outside
      a transition. */
  predicate HostCommits(s: State, c: HostCall)
  {
    || (c.Deliver? && c.message.what == TransitionComplete && IsSwitching(s.mode) && s.model.Some?)
    || (c.Jump? && s.mode == NoTransition && s.model.Some?)
  }

  /** A fling that interrupts a switch in flight commits an index change. */
  predicate GestureCommits(s: State, g: GestureCall)
  {
    g.Fling? && SwitchHasModel(s) && SwipeInterrupts(s, g.vx, g.vy, g.pos)
  }

  /** The events that commit an index change to the data model. */
  predicate CommitsIndex(s: State, e: Event)
  {
    match e
    case Host(c) => HostCommits(s, c)
    case Gesture(g) => GestureCommits(s, g)
  }

  /** One host or handler call. The calls that dereference an absent model
      or reject an argument raise. */
  function HostStep(s: State, c: HostCall): (r: Result<State, Fault>)
    requires c.Deliver? ==> c.message in s.queue
    ensures r.Err? ==>
      || (c.ImageInvalidated? && s.model.None?)
      || (c.ModelInvalidated? && s.model.None?)
      || (c.Reposition? && r.error == IllegalRotation(s.imageRotation))
      || (c.Jump? && s.model.None?)
      || (c.SlideIn? && r.error == IllegalDirection(c.direction))
    ensures r.Ok? ==> Extends(s, r.value)
    ensures r.Ok? && Inv(s) ==> Inv(r.value)
    ensures r.Ok? ==> LoadingStep(s.loading, r.value.loading)
    ensures r.Ok? && r.value.loading == Timeout && s.loading != Timeout ==>
      s.loading == Init && c.Deliver? && c.message.what == ShowLoading
    ensures r.Ok? ==> Commits(r.value.effects) == Commits(s.effects) + (if HostCommits(s, c) then 1 else 0)
  {
    match c
    case ImageInvalidated(_, _, _) => InvalidationStep(s, c)
    case ModelInvalidated(_, _) => InvalidationStep(s, c)
    case Deliver(m) => Ok(DeliverStep(s, m))
    case Jump(index) => JumpStep(s, index)
    case _ => ViewStep(s, c)
  }

  /** The host calls other than invalidation, delivery and `jumpTo`. They
      raise only on an illegal rotation or slide-in direction, leave the
      loading state alone and commit nothing. */
  function ViewStep(s: State, c: HostCall): (r: Result<State, Fault>)
    requires !c.ImageInvalidated? && !c.ModelInvalidated? && !c.Deliver? && !c.Jump?
    ensures r.Err? ==>
      || (c.Reposition? && r.error == IllegalRotation(s.imageRotation))
      || (c.SlideIn? && r.error == IllegalDirection(c.direction))
    ensures r.Ok? ==> Extends(s, r.value) && r.value.loading == s.loading
    ensures r.Ok? && Inv(s) ==> Inv(r.value)
    ensures r.Ok? ==> Commits(r.value.effects) == Commits(s.effects)
  {
    match c
    case AttachModel(m) => Ok(SetModel(s, m))
    case AttachTapListener(present) => Ok(SetPhotoTapListener(s, present))
    case Reposition(pos) => SetPosition(s, pos)
    case SignalTransitionComplete => Ok(NotifyTransitionComplete(s))
    case SlideIn(direction) => StartSlideInAnimation(s, direction)
    case OpenAnimationBegins => Ok(OpenAnimationStarted(s))
    case PauseView => Ok(Pause(s))
    case ResumeView => Ok(Resume(s))
    case StoreOpenRect(rect) => Ok(SetOpenAnimationRect(s, rect))
    case TakeOpenRect => Ok(RetrieveOpenAnimationRect(s).1)
  }

  /** The data model's invalidation calls. They raise only by reading an
      absent model, keep the loading state to its legal moves without ever
      entering TIMEOUT, and commit nothing. */
  function InvalidationStep(s: State, c: HostCall): (r: Result<State, Fault>)
    requires c.ImageInvalidated? || c.ModelInvalidated?
    ensures r.Err? ==> s.model.None?
    ensures r.Ok? ==> Extends(s, r.value)
    ensures r.Ok? && Inv(s) ==> Inv(r.value)
    ensures r.Ok? ==> LoadingStep(s.loading, r.value.loading)
    ensures r.Ok? && s.loading != Timeout ==> r.value.loading != Timeout
    ensures r.Ok? ==> Commits(r.value.effects) == Commits(s.effects)
  {
    if c.ImageInvalidated? then NotifyImageInvalidated(s, c.which, c.src, c.pos)
    else NotifyModelInvalidated(s, c.src, c.pos)
  }

  /** The handler delivering a pending message: only SHOW_LOADING in INIT
      enters TIMEOUT, and only a completed switch commits. */
  function DeliverStep(s: State, m: Message): (r: State)
    requires m in s.queue
    ensures Extends(s, r)
    ensures Inv(s) ==> Inv(r)
    ensures LoadingStep(s.loading, r.loading)
    ensures r.loading == Timeout && s.loading != Timeout ==> s.loading == Init && m.what == ShowLoading
    ensures Commits(r.effects) == Commits(s.effects) +
      (if m.what == TransitionComplete && IsSwitching(s.mode) && s.model.Some? then 1 else 0)
  {
    HandleMessage(s, m)
  }

  /** `jumpTo` as a host call, its answer dropped: an accepted jump is one
      index change. */
  function JumpStep(s: State, index: int): (r: Result<State, Fault>)
    ensures r.Err? <==> s.mode == NoTransition && s.model.None?
    ensures r.Ok? ==> Extends(s, r.value) && r.value.loading == s.loading && r.value.queue == s.queue
    ensures r.Ok? && Inv(s) ==> Inv(r.value)
    ensures r.Ok? ==>
      Commits(r.value.effects) == Commits(s.effects) + (if s.mode == NoTransition && s.model.Some? then 1 else 0)
  {
    var j := JumpTo(s, index);
    if j.Ok? then Ok(j.value.1) else Err(j.error)
  }

  /** One recognizer callback. Gestures never touch the loading state. A
      fling that interrupts a switch in flight after the model was detached
      dereferences the absent model; any other fling in that state passes
      through `onFling` without effect. */
  function GestureStep(s: State, g: GestureCall): (r: Result<State, Fault>)
    ensures r.Err? ==> g.Fling? && IsSwitching(s.mode) && s.model.None?
    ensures r.Ok? ==> Extends(s, r.value) && r.value.loading == s.loading
    ensures r.Ok? && Inv(s) ==> Inv(r.value)
    ensures r.Ok? ==> Commits(r.value.effects) == Commits(s.effects) + (if GestureCommits(s, g) then 1 else 0)
  {
    match g
    case TapUp(x, y) => Ok(OnSingleTapUp(s, x, y).1)
    case DoubleTap(x, y, pos) => Ok(OnDoubleTap(s, x, y, pos).1)
    case Drag(dx, dy) => Ok(OnScroll(s, dx, dy).1)
    case Fling(_, _, _, _) => FlingStep(s, g)
    case PinchBegin(focusX, focusY) => Ok(OnScaleBegin(s, focusX, focusY).1)
    case Pinch(focusX, focusY, factor, outOfRange) => Ok(OnScale(s, focusX, focusY, factor, outOfRange).1)
    case PinchEnd(pos) => Ok(OnScaleEnd(s, pos))
    case Press => Ok(OnDown(s))
    case Release(pos) => Ok(OnUp(s, pos))
  }

  /** A fling as a recognizer callback, with the model possibly detached
      while a switch is in flight. */
  function FlingStep(s: State, g: GestureCall): (r: Result<State, Fault>)
    requires g.Fling?
    ensures r.Err? ==> IsSwitching(s.mode) && s.model.None?
    ensures r.Ok? ==> Extends(s, r.value) && r.value.loading == s.loading
    ensures r.Ok? && Inv(s) ==> Inv(r.value)
    ensures r.Ok? ==> Commits(r.value.effects) == Commits(s.effects) + (if GestureCommits(s, g) then 1 else 0)
  {
    if SwitchHasModel(s) then Ok(OnFling(s, g.vx, g.vy, g.pos, g.flung).1)
    else if SwipeInterrupts(s, g.vx, g.vy, g.pos) then Err(NullModel)
    else Ok(s)
  }

  /** One entry-point call of either kind. */
  function Step(s: State, e: Event): (r: Result<State, Fault>)
    requires Enabled(s, e)
    ensures r.Err? ==> e.Host? || (e.gesture.Fling? && s.model.None?)
    ensures r.Ok? ==> Extends(s, r.value)
    ensures r.Ok? && Inv(s) ==> Inv(r.value)
    ensures r.Ok? ==> LoadingStep(s.loading, r.value.loading)
    ensures r.Ok? && r.value.loading == Timeout && s.loading != Timeout ==>
      s.loading == Init && e.Host? && e.call.Deliver? && e.call.message.what == ShowLoading
    ensures r.Ok? ==> Commits(r.value.effects) == Commits(s.effects) + (if CommitsIndex(s, e) then 1 else 0)
  {
    match e
    case Host(c) => HostStep(s, c)
    case Gesture(g) => GestureStep(s, g)
  }

  /** The state after a sequence of calls, or `None` when one of them is not
      enabled or raises. */
  function Run(s: State, es: seq<Event>): Option<State>
    decreases |es|
  {
    if |es| == 0 then Some(s)
    else if !Enabled(s, es[0]) then None
    else match Step(s, es[0])
      case Err(_) => None
      case Ok(t) => Run(t, es[1..])
  }

  /** How many of the calls in a run commit an index change. */
  function CommitSteps(s: State, es: seq<Event>): nat
    decreases |es|
  {
    if |es| == 0 || !Enabled(s, es[0]) then 0
    else match Step(s, es[0])
      case Err(_) => 0
      case Ok(t) => (if CommitsIndex(s, es[0]) then 1 else 0) + CommitSteps(t, es[1..])
  }

  /** The delayed-message bookkeeping holds along every run that starts in a
      state where it holds. */
  lemma {:induction false} RunKeepsInv(s: State, es: seq<Event>)
    requires Inv(s)
    ensures Run(s, es).Some? ==> Inv(Run(s, es).value)
    decreases |es|
  {
    if |es| > 0 && Enabled(s, es[0]) && Step(s, es[0]).Ok? {
      RunKeepsInv(Step(s, es[0]).value, es[1..]);
    }
  }

  /** From a newly constructed view, whatever the calls: at most one
      SHOW_LOADING and at most one CANCEL_EXTRA_SCALING message is ever
      pending, none of the former once the spinner is showing, and one of
      the latter exactly while the cancellation is pending. */
  lemma ReachableTimers(width: int, es: seq<Event>)
    ensures Run(Initial(width), es).Some? ==>
      var t := Run(Initial(width), es).value;
      && Count(t.queue, ShowLoading) <= 1
      && Count(t.queue, CancelExtraScaling) <= 1
      && (t.loading == Timeout ==> Count(t.queue, ShowLoading) == 0)
      && (t.extraScalingPending <==> Count(t.queue, CancelExtraScaling) == 1)
  {
    RunKeepsInv(Initial(width), es);
  }

  /** Every index change in the log of a run is accounted for by a
      completed switch, an interrupting fling or an accepted jump: no call
      commits twice and no other call commits at all. */
  lemma {:induction false} RunCommits(s: State, es: seq<Event>)
    ensures Run(s, es).Some? ==>
      Commits(Run(s, es).value.effects) == Commits(s.effects) + CommitSteps(s, es)
    decreases |es|
  {
    if |es| > 0 && Enabled(s, es[0]) && Step(s, es[0]).Ok? {
      RunCommits(Step(s, es[0]).value, es[1..]);
    }
  }

  /** The log of a run continues the log it started with. */
  lemma {:induction false} RunExtends(s: State, es: seq<Event>)
    ensures Run(s, es).Some? ==> Extends(s, Run(s, es).value)
    decreases |es|
  {
    if |es| > 0 && Enabled(s, es[0]) && Step(s, es[0]).Ok? {
      var t := Step(s, es[0]).value;
      RunExtends(t, es[1..]);
      if Run(t, es[1..]).Some? {
        var u := Run(t, es[1..]).value;
        assert u.effects[..|s.effects|] == u.effects[..|t.effects|][..|s.effects|];
      }
    }
  }

  /** What the data model must guarantee for ownership to stay exclusive:
      a screen-nail it hands to a neighbour slot or to the tile view is not
      one the view already holds elsewhere. */
  predicate HandsOverFresh(s: State, e: Event)
  {
    match e
    case Host(ImageInvalidated(which, src, _)) =>
      && (which == -1 ==> Apart(src.prevScreenNail, s.tileNail, s.next.nail))
      && (which == 0 ==> Apart(s.prev.nail, src.screenNail, s.next.nail))
      && (which == 1 ==> Apart(s.prev.nail, s.tileNail, src.nextScreenNail))
    case Host(ModelInvalidated(src, _)) =>
      if IsSwitching(s.mode) then Apart(s.prev.nail, src.screenNail, s.next.nail)
      else Apart(src.prevScreenNail, src.screenNail, src.nextScreenNail)
    case _ => true
  }

  /** A state whose three owners hold what another's hold is as exclusive. */
  lemma SameNailsKeepDistinct(s: State, r: State)
    requires Distinct(s)
    requires r.prev.nail == s.prev.nail && r.tileNail == s.tileNail && r.next.nail == s.next.nail
    ensures Distinct(r)
  {
  }

  /** Refreshing one neighbour slot keeps ownership exclusive when the
      screen-nail the model hands over is fresh. */
  lemma ImageInvalidatedKeepsDistinct(s: State, which: int, src: ModelView, pos: Position)
    requires Distinct(s) && HandsOverFresh(s, Host(ImageInvalidated(which, src, pos)))
    ensures NotifyImageInvalidated(s, which, src, pos).Ok? ==>
      Distinct(NotifyImageInvalidated(s, which, src, pos).value)
  {
    var r := NotifyImageInvalidated(s, which, src, pos);
    if r.Ok? {
      var t := r.value;
      if which == -1 && !IsSwitching(s.mode) {
        assert t.prev.nail == src.prevScreenNail && t.tileNail == s.tileNail && t.next.nail == s.next.nail;
      } else if which == 1 && !IsSwitching(s.mode) {
        assert t.prev.nail == s.prev.nail && t.tileNail == s.tileNail && t.next.nail == src.nextScreenNail;
      } else if which == 0 {
        assert t.prev.nail == s.prev.nail && t.tileNail == src.screenNail && t.next.nail == s.next.nail;
      } else {
        assert t.prev.nail == s.prev.nail && t.tileNail == s.tileNail && t.next.nail == s.next.nail;
        SameNailsKeepDistinct(s, t);
      }
    }
  }

  /** Refreshing both neighbour slots keeps ownership exclusive when the
      screen-nails the model hands over are fresh. */
  lemma ModelInvalidatedKeepsDistinct(s: State, src: ModelView, pos: Position)
    requires Distinct(s) && HandsOverFresh(s, Host(ModelInvalidated(src, pos)))
    ensures NotifyModelInvalidated(s, src, pos).Ok? ==> Distinct(NotifyModelInvalidated(s, src, pos).value)
  {
    var r := NotifyModelInvalidated(s, src, pos);
    if r.Ok? {
      var t := r.value;
      if IsSwitching(s.mode) {
        assert t.prev.nail == s.prev.nail && t.tileNail == src.screenNail && t.next.nail == s.next.nail;
      } else {
        assert t.prev.nail == src.prevScreenNail && t.tileNail == src.screenNail && t.next.nail == src.nextScreenNail;
      }
    }
  }

  /** Delivering a message keeps ownership exclusive. */
  lemma DeliverKeepsDistinct(s: State, m: Message)
    requires m in s.queue && Distinct(s)
    ensures Distinct(HandleMessage(s, m))
  {
    var s1 := s.(queue := Take(s.queue, m));
    SameNailsKeepDistinct(s, s1);
    if m.what == TransitionComplete {
      TransitionCompleteKeepsDistinct(s1);
    } else {
      SameNailsKeepDistinct(s, HandleMessage(s, m));
    }
  }

  /** Pausing only drops screen-nails. */
  lemma PauseKeepsDistinct(s: State)
    requires Distinct(s)
    ensures Distinct(Pause(s))
  {
  }

  /** A fling moves screen-nails only through the swipe it starts. */
  lemma FlingKeepsDistinct(s: State, vx: real, vy: real, pos: Position, flung: bool)
    requires SwitchHasModel(s) && Distinct(s)
    ensures Distinct(OnFling(s, vx, vy, pos, flung).1)
  {
    SwipeKeepsDistinct(s, vx, vy, pos);
    var t := SwipeImages(s, vx, vy, pos).1;
    SameNailsKeepDistinct(t, OnFling(s, vx, vy, pos, flung).1);
  }

  /** The host calls other than invalidation, delivery and `jumpTo` move no
      screen-nail but by pausing. */
  lemma ViewStepKeepsDistinct(s: State, c: HostCall)
    requires !c.ImageInvalidated? && !c.ModelInvalidated? && !c.Deliver? && !c.Jump? && Distinct(s)
    ensures ViewStep(s, c).Ok? ==> Distinct(ViewStep(s, c).value)
  {
    match c
    case AttachModel(m) => SameNailsKeepDistinct(s, SetModel(s, m));
    case AttachTapListener(present) => SameNailsKeepDistinct(s, SetPhotoTapListener(s, present));
    case Reposition(pos) =>
      if SetPosition(s, pos).Ok? {
        SameNailsKeepDistinct(s, SetPosition(s, pos).value);
      }
    case SignalTransitionComplete => SameNailsKeepDistinct(s, NotifyTransitionComplete(s));
    case SlideIn(direction) =>
      if StartSlideInAnimation(s, direction).Ok? {
        SameNailsKeepDistinct(s, StartSlideInAnimation(s, direction).value);
      }
    case OpenAnimationBegins => SameNailsKeepDistinct(s, OpenAnimationStarted(s));
    case PauseView => PauseKeepsDistinct(s);
    case ResumeView => SameNailsKeepDistinct(s, Resume(s));
    case StoreOpenRect(rect) => SameNailsKeepDistinct(s, SetOpenAnimationRect(s, rect));
    case TakeOpenRect => SameNailsKeepDistinct(s, RetrieveOpenAnimationRect(s).1);
  }

  /** No host or handler call makes two owners hold the same screen-nail,
      provided the data model hands over fresh ones. */
  lemma HostStepKeepsDistinct(s: State, c: HostCall)
    requires (c.Deliver? ==> c.message in s.queue) && Distinct(s) && HandsOverFresh(s, Host(c))
    ensures HostStep(s, c).Ok? ==> Distinct(HostStep(s, c).value)
  {
    match c
    case ImageInvalidated(which, src, pos) => ImageInvalidatedKeepsDistinct(s, which, src, pos);
    case ModelInvalidated(src, pos) => ModelInvalidatedKeepsDistinct(s, src, pos);
    case Deliver(m) => DeliverKeepsDistinct(s, m);
    case Jump(index) =>
      if JumpTo(s, index).Ok? {
        SameNailsKeepDistinct(s, JumpTo(s, index).value.1);
      }
    case _ => ViewStepKeepsDistinct(s, c);
  }

  /** Apart from a fling, which may start a swipe, no recognizer callback
      moves a screen-nail. */
  lemma GestureKeepsNails(s: State, g: GestureCall)
    requires !g.Fling? && GestureStep(s, g).Ok?
    ensures var r := GestureStep(s, g).value;
      r.prev.nail == s.prev.nail && r.tileNail == s.tileNail && r.next.nail == s.next.nail
  {
    match g
    case TapUp(x, y) =>
    case DoubleTap(x, y, pos) =>
    case Drag(dx, dy) =>
    case PinchBegin(focusX, focusY) =>
    case Pinch(focusX, focusY, factor, outOfRange) =>
    case PinchEnd(pos) =>
    case Press =>
    case Release(pos) =>
  }

  /** No recognizer callback makes two owners hold the same screen-nail. */
  lemma GestureStepKeepsDistinct(s: State, g: GestureCall)
    requires Distinct(s)
    ensures GestureStep(s, g).Ok? ==> Distinct(GestureStep(s, g).value)
  {
    var r := GestureStep(s, g);
    if r.Ok? {
      if g.Fling? {
        if SwitchHasModel(s) {
          FlingKeepsDistinct(s, g.vx, g.vy, g.pos, g.flung);
        } else {
          SameNailsKeepDistinct(s, r.value);
        }
      } else {
        GestureKeepsNails(s, g);
        SameNailsKeepDistinct(s, r.value);
      }
    }
  }

  /** No call makes two owners hold the same screen-nail, provided the data
      model hands over fresh ones. */
  lemma StepKeepsDistinct(s: State, e: Event)
    requires Enabled(s, e) && Distinct(s) && HandsOverFresh(s, e)
    ensures Step(s, e).Ok? ==> Distinct(Step(s, e).value)
  {
    match e
    case Host(c) => HostStepKeepsDistinct(s, c);
    case Gesture(g) => GestureStepKeepsDistinct(s, g);
  }

  /** Runs along which the data model always hands over fresh screen-nails. */
  predicate FreshAlong(s: State, es: seq<Event>)
    decreases |es|
  {
    || |es| == 0
    || !Enabled(s, es[0])
    || (HandsOverFresh(s, es[0]) && (Step(s, es[0]).Ok? ==> FreshAlong(Step(s, es[0]).value, es[1..])))
  }

  /** Screen-nail ownership stays exclusive along every such run. */
  lemma {:induction false} RunKeepsDistinct(s: State, es: seq<Event>)
    requires Distinct(s) && FreshAlong(s, es)
    ensures Run(s, es).Some? ==> Distinct(Run(s, es).value)
    decreases |es|
  {
    if |es| > 0 && Enabled(s, es[0]) && Step(s, es[0]).Ok? {
      StepKeepsDistinct(s, es[0]);
      RunKeepsDistinct(Step(s, es[0]).value, es[1..]);
    }
  }
}

=== FILE: geometry.dfy ===
/** Integer helpers shared by the photo view's layout code: Java's truncating
    division, the quarter-turn test used wherever width and height swap, and
    the centring gap of an image inside the view. */
module Geometry {

  /** Fixed distance between the current image and a neighbour, in pixels. */
  const IMAGE_GAP: int := 96

  /** Base drag distance past which releasing the image switches to a neighbour. */
  const SWITCH_THRESHOLD: int := 256

  /** Java's `/` on `int` for a positive divisor: rounds toward zero. */
  function JavaDiv(a: int, b: int): (q: int)
    requires b > 0
  {
    if a >= 0 then a / b else -((-a) / b)
  }

  /** Truncation toward zero: negating the dividend negates the quotient,
      and on a non-negative dividend the quotient is the floor. */
  lemma JavaDivTruncates(a: int, b: int)
    requires b > 0
    ensures JavaDiv(-a, b) == -JavaDiv(a, b)
    ensures a >= 0 ==> JavaDiv(a, b) == a / b && JavaDiv(a, b) * b <= a < JavaDiv(a, b) * b + b
  {
  }

  /** `((degree / 90) & 1) != 0`: the rotation is an odd number of quarter
      turns, so the displayed width is the stored height. On a two's
      complement int, `x & 1` is the Euclidean remainder of `x` by 2. */
  predicate IsRotated90Family(degree: int)
  {
    JavaDiv(degree, 90) % 2 == 1
  }

  /** `getRotated`: the dimension that is horizontal on screen after the rotation. */
  function GetRotated(degree: int, original: int, other: int): int
  {
    if IsRotated90Family(degree) then other else original
  }

  lemma RotationFamilies()
    ensures !IsRotated90Family(0) && IsRotated90Family(90)
    ensures !IsRotated90Family(180) && IsRotated90Family(270)
  {
  }

  /** `gapToSide`: the space left on each side when an image of the given
      width is centred in the view, and zero when it does not fit. */
  function GapToSide(imageWidth: int, viewWidth: int): (g: int)
    ensures g >= 0
    ensures viewWidth - imageWidth >= 0 ==>
      2 * g <= viewWidth - imageWidth < 2 * g + 2
    ensures viewWidth - imageWidth < 2 ==> g == 0
  {
    var d := JavaDiv(viewWidth - imageWidth, 2);
    if d > 0 then d else 0
  }
}

=== FILE: gestures.dfy ===
/** The photo view's gesture listener (`MyGestureListener`): turns taps,
    drags, flings and pinches into navigation, zoom or pass-through calls.
    Its own state, the ignore-up latch, lives in the controller `State`
    together with the pending flag of the extra-scaling cancellation. */
module Gestures {
  import opened MessageQueue
  import opened PhotoView

  /** A Java `float` as the gesture recognizer may deliver it. */
  datatype Float = Finite(value: real) | NotANumber | Infinite(negative: bool)

  /** Java's `(int)` cast of a finite float: rounds toward zero. Values
      beyond the int range, which Java saturates, are not modelled. */
  function TruncateToInt(x: real): (n: int)
    ensures x >= 0.0 ==> n as real <= x < n as real + 1.0
    ensures x < 0.0 ==> n as real - 1.0 < x <= n as real
  {
    if x >= 0.0 then x.Floor else -((-x).Floor)
  }

  /** `Math.max` on floats that are not NaN. */
  function MaxReal(a: real, b: real): (m: real)
    ensures m >= a && m >= b
    ensures m == a || m == b
  {
    if a >= b then a else b
  }

  /** `onSingleTapUp`: forwarded to the tap listener, if any, at the
      truncated coordinates; never changes the view's state. */
  function OnSingleTapUp(s: State, x: real, y: real): (r: (bool, State))
    ensures r.0
    ensures s.hasTapListener ==> r.1.effects == s.effects + [SingleTap(TruncateToInt(x), TruncateToInt(y))]
    ensures !s.hasTapListener ==> r.1 == s
    ensures r.1.(effects := s.effects) == s
    ensures Commits(r.1.effects) == Commits(s.effects)
  {
    CommitsEmitNone(s.effects, [SingleTap(TruncateToInt(x), TruncateToInt(y))]);
    if s.hasTapListener then (true, Emit(s, [SingleTap(TruncateToInt(x), TruncateToInt(y))]))
    else (true, s)
  }

  /** `onDoubleTap`: ignored during a transition; otherwise swallows the
      coming up event and zooms in, to the larger of 1.5 and one and a half
      times the current scale, from the minimal or an unmagnified scale, or
      back to the full view from a zoomed one. */
  function OnDoubleTap(s: State, x: real, y: real, pos: Position): (r: (bool, State))
    ensures r.0
    ensures s.mode != NoTransition ==> r.1 == s
    ensures s.mode == NoTransition ==> r.1.ignoreUp
    ensures s.mode == NoTransition && (pos.currentScale <= 1.0 || pos.isMinimal) ==>
      && r.1.effects == s.effects + [ZoomIn(x, y, MaxReal(1.5, pos.currentScale * 1.5))]
      && |r.1.effects| == |s.effects| + 1
      && r.1.effects[|s.effects|].ZoomIn?
      && r.1.effects[|s.effects|].scale >= 1.5
      && r.1.effects[|s.effects|].scale >= pos.currentScale * 1.5
      && r.1.effects[|s.effects|].x == x && r.1.effects[|s.effects|].y == y
    ensures s.mode == NoTransition && !(pos.currentScale <= 1.0 || pos.isMinimal) ==>
      r.1.effects == s.effects + [ResetToFullView]
    ensures Extends(s, r.1)
    ensures r.1.(ignoreUp := s.ignoreUp, effects := s.effects) == s
    ensures Commits(r.1.effects) == Commits(s.effects)
  {
    CommitsEmitNone(s.effects, [ZoomIn(x, y, MaxReal(1.5, pos.currentScale * 1.5))]);
    CommitsEmitNone(s.effects, [ResetToFullView]);
    if s.mode != NoTransition then (true, s)
    else
      var s1 := s.(ignoreUp := true);
      if pos.currentScale <= 1.0 || pos.isMinimal then
        (true, Emit(s1, [ZoomIn(x, y, MaxReal(1.5, pos.currentScale * 1.5))]))
      else (true, Emit(s1, [ResetToFullView]))
  }

  /** `onScroll`: consumed but ignored during a transition; otherwise handed
      to the position controller with which neighbours exist. */
  function OnScroll(s: State, dx: real, dy: real): (r: (bool, State))
    ensures r.0
    ensures s.mode != NoTransition ==> r.1 == s
    ensures s.mode == NoTransition ==>
      r.1.effects == s.effects + [StartScroll(dx, dy, s.next.enabled, s.prev.enabled)]
    ensures r.1.(effects := s.effects) == s
    ensures Commits(r.1.effects) == Commits(s.effects)
  {
    CommitsEmitNone(s.effects, [StartScroll(dx, dy, s.next.enabled, s.prev.enabled)]);
    if s.mode != NoTransition then (true, s)
    else (true, Emit(s, [StartScroll(dx, dy, s.next.enabled, s.prev.enabled)]))
  }

  /** `onFling`: a swipe to a neighbour takes precedence; otherwise, with no
      transition active, the position controller flings, and `flung` is its
      answer. Either handled path swallows the coming up event. */
  function OnFling(s: State, vx: real, vy: real, pos: Position, flung: bool): (r: (bool, State))
    requires SwitchHasModel(s)
    ensures r.0
    ensures SwipeFires(s, vx, vy, pos) ==>
      r.1 == SwipeImages(s, vx, vy, pos).1.(ignoreUp := true) && IsSwitching(r.1.mode)
    ensures !SwipeFires(s, vx, vy, pos) && SwipeImages(s, vx, vy, pos).1.mode == NoTransition ==>
      && |r.1.effects| > |s.effects|
      && EndsWith(r.1.effects, FlingImage(vx, vy))
      && (r.1.ignoreUp <==> s.ignoreUp || flung)
      && r.1.mode == NoTransition
      && r.1 == Emit(SwipeImages(s, vx, vy, pos).1, [FlingImage(vx, vy)]).(ignoreUp := s.ignoreUp || flung)
    ensures !SwipeFires(s, vx, vy, pos) && SwipeImages(s, vx, vy, pos).1.mode != NoTransition ==>
      r.1 == SwipeImages(s, vx, vy, pos).1 && r.1.ignoreUp == s.ignoreUp
    ensures r.1.ignoreUp ==> s.ignoreUp || flung || SwipeFires(s, vx, vy, pos)
    ensures Extends(s, r.1)
    ensures r.1.loading == s.loading && r.1.queue == s.queue
    ensures r.1.extraScalingPending == s.extraScalingPending && r.1.model == s.model
    ensures Commits(r.1.effects) == Commits(s.effects) + (if SwipeInterrupts(s, vx, vy, pos) then 1 else 0)
  {
    var (swiped, s1) := SwipeImages(s, vx, vy, pos);
    SwipeCommits(s, vx, vy, pos);
    CommitsEmitNone(s1.effects, [FlingImage(vx, vy)]);
    if swiped then (true, s1.(ignoreUp := true))
    else if s1.mode != NoTransition then (true, s1)
    else
      var s2 := Emit(s1, [FlingImage(vx, vy)]);
      (true, if flung then s2.(ignoreUp := true) else s2)
  }

  /** A fling that neither starts nor interrupts a switch changes at most
      the latch and the log. */
  lemma PlainFlingFrame(s: State, vx: real, vy: real, pos: Position, flung: bool)
    requires SwitchHasModel(s)
    requires !SwipeFires(s, vx, vy, pos) && !SwipeInterrupts(s, vx, vy, pos)
    ensures OnFling(s, vx, vy, pos, flung).1.(ignoreUp := s.ignoreUp, effects := s.effects) == s
  {
    SwipeFrame(s, vx, vy, pos);
  }

  /** `onScaleBegin`: refused during a transition so the recognizer can
      offer the gesture elsewhere. */
  function OnScaleBegin(s: State, focusX: real, focusY: real): (r: (bool, State))
    ensures r.0 <==> s.mode == NoTransition
    ensures !r.0 ==> r.1 == s
    ensures r.0 ==> r.1.effects == s.effects + [BeginScale(focusX, focusY)]
    ensures r.1.(effects := s.effects) == s
    ensures Commits(r.1.effects) == Commits(s.effects)
  {
    CommitsEmitNone(s.effects, [BeginScale(focusX, focusY)]);
    if s.mode != NoTransition then (false, s)
    else (true, Emit(s, [BeginScale(focusX, focusY)]))
  }

  /** `onScale`: a NaN or infinite factor, or an active transition, changes
      nothing. Otherwise the factor is applied and `outOfRange` is the
      position controller's answer: entering the extra-scaling range arms one
      700 ms cancellation, unless one is already pending; returning to range
      disarms a pending one. */
  function OnScale(s: State, focusX: real, focusY: real, scale: Float, outOfRange: bool): (r: (bool, State))
    ensures r.0
    ensures !scale.Finite? || s.mode != NoTransition ==> r.1 == s
    ensures scale.Finite? && s.mode == NoTransition ==>
      && r.1.extraScalingPending == outOfRange
      && r.1.effects == s.effects + [ScaleBy(scale.value, focusX, focusY)] +
           (if outOfRange != s.extraScalingPending then [SetExtraScalingRange(outOfRange)] else [])
    ensures Extends(s, r.1)
    ensures r.1.(queue := s.queue, extraScalingPending := s.extraScalingPending, effects := s.effects) == s
    ensures Inv(s) ==> Inv(r.1)
    ensures Commits(r.1.effects) == Commits(s.effects)
  {
    if !scale.Finite? || s.mode != NoTransition then (true, s)
    else
      var s1 := Emit(s, [ScaleBy(scale.value, focusX, focusY)]);
      CommitsEmitNone(s.effects, [ScaleBy(scale.value, focusX, focusY)]);
      CommitsEmitNone(s1.effects, [SetExtraScalingRange(outOfRange)]);
      if outOfRange then
        if !s.extraScalingPending then
          var armed := s1.(queue := Send(s1.queue, Message(CancelExtraScaling, DELAY_CANCEL_EXTRA_SCALING)),
                           extraScalingPending := true);
          (true, Emit(armed, [SetExtraScalingRange(true)]))
        else (true, s1)
      else if s.extraScalingPending then
        var disarmed := s1.(queue := RemoveMessages(s1.queue, CancelExtraScaling),
                            extraScalingPending := false);
        (true, Emit(disarmed, [SetExtraScalingRange(false)]))
      else
        (true, s1)
  }

  /** What a pinch step does to the pending extra-scaling cancellation:
      entering the range arms exactly one more, leaving it removes every
      pending one, and staying on the same side leaves the queue alone;
      no other kind of message is touched. */
  lemma OnScaleTimer(s: State, focusX: real, focusY: real, scale: Float, outOfRange: bool)
    ensures var r := OnScale(s, focusX, focusY, scale, outOfRange).1;
      && (forall w :: w != CancelExtraScaling ==> Count(r.queue, w) == Count(s.queue, w))
      && (!scale.Finite? || s.mode != NoTransition || outOfRange == s.extraScalingPending ==> r.queue == s.queue)
      && (scale.Finite? && s.mode == NoTransition && outOfRange && !s.extraScalingPending ==>
            && Count(r.queue, CancelExtraScaling) == Count(s.queue, CancelExtraScaling) + 1
            && Message(CancelExtraScaling, DELAY_CANCEL_EXTRA_SCALING) in r.queue)
      && (scale.Finite? && s.mode == NoTransition && !outOfRange && s.extraScalingPending ==>
            Count(r.queue, CancelExtraScaling) == 0)
  {
    var r := OnScale(s, focusX, focusY, scale, outOfRange).1;
    if scale.Finite? && s.mode == NoTransition && outOfRange != s.extraScalingPending {
      if outOfRange {
        assert r.queue == Send(s.queue, Message(CancelExtraScaling, DELAY_CANCEL_EXTRA_SCALING));
      } else {
        assert r.queue == RemoveMessages(s.queue, CancelExtraScaling);
      }
    }
  }

  /** `onScaleEnd`: ends the pinch and tries to snap to a neighbour. A
      pending extra-scaling cancellation is left armed. */
  function OnScaleEnd(s: State, pos: Position): (r: State)
    ensures r == SnapToNeighborImage(Emit(s, [EndScale]), pos).1
    ensures |r.effects| > |s.effects| && r.effects[..|s.effects| + 1] == s.effects + [EndScale]
    ensures r.queue == s.queue && r.extraScalingPending == s.extraScalingPending
    ensures r.mode != s.mode ==> s.mode == NoTransition && IsSwitching(r.mode)
    ensures r.loading == s.loading
    ensures Commits(r.effects) == Commits(s.effects)
  {
    CommitsEmitNone(s.effects, [EndScale]);
    SnapToNeighborImage(Emit(s, [EndScale]), pos).1
  }

  /** `onDown`: does nothing; in particular the ignore-up latch is not reset. */
  function OnDown(s: State): (r: State)
    ensures r.ignoreUp == s.ignoreUp
    ensures r == s
  {
    s
  }

  /** `onUp`: the edge glow is always released first. A set ignore-up latch
      is cleared and swallows the event; otherwise the image snaps to a
      neighbour, or, failing that and with no transition active, the
      position controller handles the release. */
  function OnUp(s: State, pos: Position): (r: State)
    ensures !r.ignoreUp
    ensures s.ignoreUp ==> r == s.(ignoreUp := false, effects := s.effects + [EdgeRelease])
    ensures !s.ignoreUp ==>
      var (snapped, t) := SnapToNeighborImage(Emit(s, [EdgeRelease]), pos);
      && (snapped ==> r == t && IsSwitching(r.mode))
      && (!snapped && s.mode == NoTransition ==> r == Emit(s, [EdgeRelease, PositionUp]))
      && (!snapped && s.mode != NoTransition ==> r == Emit(s, [EdgeRelease]))
    ensures Extends(s, r)
    ensures r.queue == s.queue && r.loading == s.loading && r.extraScalingPending == s.extraScalingPending
    ensures Commits(r.effects) == Commits(s.effects)
  {
    CommitsEmitNone(s.effects, [EdgeRelease]);
    var s1 := Emit(s, [EdgeRelease]);
    if s1.ignoreUp then s1.(ignoreUp := false)
    else
      var (snapped, s2) := SnapToNeighborImage(s1, pos);
      if !snapped && s2.mode == NoTransition then
        CommitsEmitNone(s2.effects, [PositionUp]);
        assert s2.effects + [PositionUp] == s.effects + [EdgeRelease, PositionUp];
        Emit(s2, [PositionUp])
      else s2
  }

  /** The edge glow is released first on every up event, and the position
      controller sees the release exactly when the latch is clear, no
      transition is active and neither neighbour is dragged far enough in. */
  lemma OnUpReleasesPosition(s: State, pos: Position)
    ensures var r := OnUp(s, pos);
      && |r.effects| > |s.effects| && r.effects[|s.effects|] == EdgeRelease
      && (PositionUp in r.effects[|s.effects|..] <==>
            !s.ignoreUp && s.mode == NoTransition && !SnapsToNext(s, pos) && !SnapsToPrevious(s, pos))
  {
    var r := OnUp(s, pos);
    var s1 := Emit(s, [EdgeRelease]);
    if s.ignoreUp {
      assert r.effects[|s.effects|..] == [EdgeRelease];
    } else {
      var t := SnapToNeighborImage(s1, pos);
      assert t.0 <==> s.mode == NoTransition && (SnapsToNext(s, pos) || SnapsToPrevious(s, pos));
      if t.0 {
        assert r == t.1;
        assert r.effects[|s.effects|..] == [EdgeRelease, r.effects[|s1.effects|]];
      } else if s.mode == NoTransition {
        assert r.effects[|s.effects|..] == [EdgeRelease, PositionUp];
      } else {
        assert r.effects[|s.effects|..] == [EdgeRelease];
      }
    }
  }
}

=== FILE: message_queue.dfy ===
/** The photo view's private message handler, reduced to its queue of pending
    messages. Threading and wall-clock time are not modelled: a message is a
    kind plus the delay it was posted with, `sendEmptyMessage*` appends one,
    `removeMessages` drops every message of a kind, and delivering a message
    takes one occurrence out of the queue. */
module MessageQueue {

  /** The three message kinds (MSG_TRANSITION_COMPLETE, MSG_SHOW_LOADING,
      MSG_CANCEL_EXTRA_SCALING). */
  datatype What = TransitionComplete | ShowLoading | CancelExtraScaling

  /** Debounce before the loading spinner is shown, in milliseconds. */
  const DELAY_SHOW_LOADING: nat := 250

  /** Time an out-of-range pinch may last before it is cancelled, in milliseconds. */
  const DELAY_CANCEL_EXTRA_SCALING: nat := 700

  datatype Message = Message(what: What, delayMs: nat)

  type Queue = seq<Message>

  /** Number of pending messages of kind `w`. */
  function Count(q: Queue, w: What): nat
  {
    if |q| == 0 then 0
    else (if q[0].what == w then 1 else 0) + Count(q[1..], w)
  }

  lemma {:induction false} CountAppend(a: Queue, b: Queue, w: What)
    ensures Count(a + b, w) == Count(a, w) + Count(b, w)
  {
    if |a| == 0 {
      assert a + b == b;
    } else {
      assert (a + b)[1..] == a[1..] + b;
      CountAppend(a[1..], b, w);
    }
  }

  lemma {:induction false} CountPositive(q: Queue, m: Message)
    requires m in q
    ensures Count(q, m.what) >= 1
  {
    if q[0] != m {
      assert m in q[1..];
      CountPositive(q[1..], m);
    }
  }

  /** `sendEmptyMessage(Delayed)`: one more message of that kind, nothing else changes. */
  function Send(q: Queue, m: Message): (r: Queue)
    ensures m in r
    ensures Count(r, m.what) == Count(q, m.what) + 1
    ensures forall w :: w != m.what ==> Count(r, w) == Count(q, w)
    ensures forall x :: x in q ==> x in r
    ensures multiset(r) == multiset(q) + multiset{m}
  {
    CountAppend(q, [m], m.what);
    forall w | w != m.what
      ensures Count(q + [m], w) == Count(q, w)
    {
      CountAppend(q, [m], w);
    }
    q + [m]
  }

  /** `removeMessages(what)`: every message of kind `w` is gone, every other
      message stays. */
  function RemoveMessages(q: Queue, w: What): (r: Queue)
    ensures Count(r, w) == 0
    ensures forall w' :: w' != w ==> Count(r, w') == Count(q, w')
    ensures forall m :: m in r <==> m in q && m.what != w
    ensures |r| <= |q|
  {
    if |q| == 0 then []
    else
      var rest := RemoveMessages(q[1..], w);
      assert forall m :: m in q <==> m == q[0] || m in q[1..];
      if q[0].what == w then rest
      else
        assert ([q[0]] + rest)[1..] == rest;
        [q[0]] + rest
  }

  /** Delivery of a pending message: exactly one occurrence of it leaves the queue. */
  function Take(q: Queue, m: Message): (r: Queue)
    requires m in q
    ensures |r| == |q| - 1
    ensures Count(r, m.what) == Count(q, m.what) - 1
    ensures forall w :: w != m.what ==> Count(r, w) == Count(q, w)
    ensures forall x :: x in r ==> x in q
    ensures multiset(r) == multiset(q) - multiset{m}
  {
    if q[0] == m then
      assert q == [q[0]] + q[1..];
      q[1..]
    else
      assert m in q[1..];
      var rest := Take(q[1..], m);
      assert ([q[0]] + rest)[1..] == rest;
      assert q == [q[0]] + q[1..];
      [q[0]] + rest
  }
}

=== FILE: move_out.dfy ===
/** The fade/scale-out curves of the photo view, over exact rationals
    (`real`) in place of Java `float`. */
module MoveOut {
  import opened RealDivision

  /** Focal length of the perspective interpolator (`ZInterpolator(0.5f)`). */
  const FOCAL_LENGTH: real := 0.5

  /** Scale reached by an object that has moved fully out (`TRANSITION_SCALE_FACTOR`). */
  const TRANSITION_SCALE_FACTOR: real := 0.74

  /** The formula used while the object is narrower than the view. */
  function NarrowProgress(left: int, w: int, viewWidth: int): real
    requires viewWidth + w > 0
  {
    1.0 - 2.0 * (left + w) as real / (viewWidth + w) as real
  }

  /** `calculateMoveOutProgress`: how far an object displayed at
      [left, right) has moved out of the view [0, viewWidth]. Negative when
      it moves right, positive when it moves left, -1 or 1 once it has just
      left the view, 0 while it fills the view. */
  function MoveOutProgress(left: int, right: int, viewWidth: int): (p: real)
    requires viewWidth > 0 && left <= right
    ensures left == viewWidth ==> p == -1.0
    ensures right == 0 ==> p == 1.0
    ensures left <= 0 && viewWidth <= right ==> p == 0.0
    ensures right - left >= viewWidth ==> (p < 0.0 <==> left > 0)
    ensures right - left < viewWidth ==> (p < 0.0 <==> left + right > viewWidth)
    ensures -(right - left) <= left <= viewWidth ==> -1.0 <= p <= 1.0
  {
    var w := right - left;
    if w < viewWidth then
      NarrowBounds(left, w, viewWidth);
      NarrowProgress(left, w, viewWidth)
    else if left > 0 then
      DivUnit(left as real, viewWidth as real);
      (-left) as real / viewWidth as real
    else if right < viewWidth then
      DivUnit((viewWidth - right) as real, viewWidth as real);
      (viewWidth - right) as real / viewWidth as real
    else 0.0
  }

  /** The narrow formula in terms of the share of the widened view the
      object's right edge has reached. */
  lemma NarrowQuotient(left: int, w: int, viewWidth: int)
    requires viewWidth + w > 0
    ensures NarrowProgress(left, w, viewWidth) == 1.0 - 2.0 * ((left + w) as real / (viewWidth + w) as real)
  {
    var a := (left + w) as real;
    var d := (viewWidth + w) as real;
    DivScale(2.0, a, d);
    assert NarrowProgress(left, w, viewWidth) == 1.0 - (2.0 * a) / d;
    assert (2.0 * a) / d == 2.0 * (a / d);
  }

  lemma NarrowBounds(left: int, w: int, viewWidth: int)
    requires 0 <= w < viewWidth
    ensures left == viewWidth ==> NarrowProgress(left, w, viewWidth) == -1.0
    ensures left + w == 0 ==> NarrowProgress(left, w, viewWidth) == 1.0
    ensures NarrowProgress(left, w, viewWidth) < 0.0 <==> 2 * left + w > viewWidth
    ensures -w <= left <= viewWidth ==> -1.0 <= NarrowProgress(left, w, viewWidth) <= 1.0
  {
    var a := (left + w) as real;
    var d := (viewWidth + w) as real;
    var q := a / d;
    NarrowQuotient(left, w, viewWidth);
    DivUnit(a, d);
    DivScale(0.5, d, d);
    assert d / d == 1.0;
    if 2 * left + w > viewWidth {
      DivStrict(0.5 * d, a, d);
    } else {
      DivMono(a, 0.5 * d, d);
    }
  }

  /** The narrow and wide branches meet: at w == viewWidth the narrow formula
      gives what the wide branches give, so the progress is continuous. */
  lemma ContinuousAtViewWidth(left: int, viewWidth: int)
    requires viewWidth > 0
    ensures NarrowProgress(left, viewWidth, viewWidth)
         == MoveOutProgress(left, left + viewWidth, viewWidth)
  {
    var W := viewWidth as real;
    var a := (left + viewWidth) as real;
    var t := 2.0 * a / (2.0 * W);
    assert t * (2.0 * W) == 2.0 * a;
    assert t * W == a;
    var p := NarrowProgress(left, viewWidth, viewWidth);
    assert p == 1.0 - t;
    assert p * W == -(left as real);
    DivUnique(-(left as real), W, p);
    if left > 0 {
    } else if left + viewWidth < viewWidth {
      assert (viewWidth - (left + viewWidth)) as real == -(left as real);
    } else {
      assert left == 0;
    }
  }

  /** Moving an object to the right never increases its progress value. */
  lemma MovingRightLowersProgress(left: int, right: int, d: int, viewWidth: int)
    requires viewWidth > 0 && left <= right && d >= 0
    ensures MoveOutProgress(left + d, right + d, viewWidth)
         <= MoveOutProgress(left, right, viewWidth)
  {
    var w := right - left;
    var W := viewWidth as real;
    if w < viewWidth {
      var D := (viewWidth + w) as real;
      DivMono((left + w) as real, (left + d + w) as real, D);
      DivScale(2.0, (left + w) as real, D);
      DivScale(2.0, (left + d + w) as real, D);
    } else if left > 0 {
      DivMono((-(left + d)) as real, (-left) as real, W);
    } else if right < viewWidth {
      DivUnit((viewWidth - right) as real, W);
      if left + d > 0 {
        DivStrict((-(left + d)) as real, 0.0, W);
        assert 0.0 / W == 0.0;
      } else if right + d < viewWidth {
        DivMono((viewWidth - (right + d)) as real, (viewWidth - right) as real, W);
      }
    } else {
      if left + d > 0 {
        DivStrict((-(left + d)) as real, 0.0, W);
        assert 0.0 / W == 0.0;
      }
    }
  }

  /** `Utils.clamp(x, min, max)`. */
  function Clamp(x: real, lo: real, hi: real): (r: real)
    requires lo <= hi
    ensures lo <= r <= hi
    ensures lo <= x <= hi ==> r == x
    ensures x < lo ==> r == lo
    ensures x > hi ==> r == hi
  {
    if x > hi then hi else if x < lo then lo else x
  }

  /** The progress `setTileViewPosition` applies to the current image: the
      move-out progress clamped to [-1, 1]. */
  function TileProgress(left: int, right: int, viewWidth: int): (p: real)
    requires viewWidth > 0 && left <= right
    ensures -1.0 <= p <= 1.0
    ensures -(right - left) <= left <= viewWidth ==> p == MoveOutProgress(left, right, viewWidth)
    ensures left > viewWidth ==> p == -1.0
    ensures right < 0 ==> p == 1.0
  {
    var raw := MoveOutProgress(left, right, viewWidth);
    if left > viewWidth then
      MovingRightLowersProgress(viewWidth, viewWidth + (right - left), left - viewWidth, viewWidth);
      Clamp(raw, -1.0, 1.0)
    else if right < 0 then
      MovingRightLowersProgress(left, right, -right, viewWidth);
      Clamp(raw, -1.0, 1.0)
    else Clamp(raw, -1.0, 1.0)
  }

  /** `ZInterpolator.getInterpolation`: emulates the perceived shrink of an
      object moving away from a camera; maps [0, 1] onto [0, 1]. */
  function ZInterpolation(x: real): (z: real)
    requires x >= 0.0
    ensures x <= 1.0 ==> 0.0 <= z <= 1.0
    ensures x == 0.0 ==> z == 0.0
    ensures x == 1.0 ==> z == 1.0
  {
    var f := FOCAL_LENGTH;
    var num := 1.0 - f / (f + x);
    var den := 1.0 - f / (f + 1.0);
    ZInterpolationBounds(x);
    num / den
  }

  lemma ZInterpolationBounds(x: real)
    requires x >= 0.0
    ensures var num := 1.0 - 0.5 / (0.5 + x);
            var den := 1.0 - 0.5 / (0.5 + 1.0);
            den > 0.0 &&
            (x <= 1.0 ==> 0.0 <= num / den <= 1.0) &&
            (x == 0.0 ==> num / den == 0.0) &&
            (x == 1.0 ==> num / den == 1.0)
  {
    var e := 0.5 + x;
    var num := 1.0 - 0.5 / e;
    var den := 1.0 - 0.5 / 1.5;
    assert 0.5 / 1.5 == 1.0 / 3.0;
    assert den == 2.0 / 3.0;
    var g := 0.5 / e;
    assert g * e == 0.5;
    assert num * e == x;
    DivUnique(x, e, num);
    var z := num / den;
    assert z * den == num;
    assert z == 1.5 * num;
    DivUnit(x, e);
    if x <= 1.0 {
      DivMono(x, (2.0 / 3.0) * e, e);
      DivScale(2.0 / 3.0, e, e);
      assert e / e == 1.0;
    }
  }

  /** `getScrollScale`: the scale applied to an image at the given scroll
      progress, shrinking from 1 at rest to the transition scale factor once
      it has fully moved out. */
  function ScrollScale(progress: real): (s: real)
    ensures -1.0 <= progress <= 1.0 ==> TRANSITION_SCALE_FACTOR <= s <= 1.0
    ensures progress == 0.0 ==> s == 1.0
    ensures progress == 1.0 || progress == -1.0 ==> s == TRANSITION_SCALE_FACTOR
  {
    var z := ZInterpolation(Abs(progress));
    assert (1.0 - z) + z * TRANSITION_SCALE_FACTOR == 1.0 - 0.26 * z;
    (1.0 - z) + z * TRANSITION_SCALE_FACTOR
  }

  /** The scale depends only on how far the object has moved, not on the side. */
  lemma ScrollScaleSymmetric(progress: real)
    ensures ScrollScale(-progress) == ScrollScale(progress)
  {
    assert Abs(-progress) == Abs(progress);
  }
}

=== FILE: outcomes.dfy ===
/** Optional values and results with an error, in place of Java's nullable
    references and exceptions. */
module Outcomes {

  /** A nullable reference: `None` stands for Java's `null`. */
  datatype Option<+T> = None | Some(value: T)

  /** The outcome of an operation that can end in an exception. */
  datatype Result<+T, +E> = Ok(value: T) | Err(error: E)
}

=== FILE: photo_view.dfy ===
/** The photo view controller: loading-state machine, transition-mode state
    machine, neighbour-slot layout, swipe/snap arbitration and lifecycle.
    The controller is an immutable `State`; every public or private method
    of the view becomes a function from the old state to the new one. The
    collaborators the view calls into (position controller, tile view,
    data model, edge glow, spinner) are not modelled: what they report is
    passed in as a `Position` or `ModelView` snapshot, and what the view asks
    of them is appended to an `effects` log. */
module PhotoView {
  import opened Outcomes
  import opened Geometry
  import opened MessageQueue
  import opened ScreenNails
  import opened RealDivision

  /** Transition modes (`TRANS_*`). */
  datatype Mode = NoTransition | SwitchNext | SwitchPrevious | SlideInLeft | SlideInRight | OpenAnimation

  /** Loading states (`LOADING_*`). */
  datatype LoadingState = Init | Timeout | Complete | Fail

  /** Direction codes accepted by `startSlideInAnimation`. */
  const SLIDE_IN_RIGHT: int := 1
  const SLIDE_IN_LEFT: int := 2

  /** Horizontal fling speed beyond which a fling switches images. */
  const SWIPE_THRESHOLD: real := 300.0

  datatype Rect = Rect(left: int, top: int, right: int, bottom: int)

  /** The edges of the view the image currently touches (`getImageAtEdges`). */
  datatype Edges = Edges(top: bool, bottom: bool, left: bool, right: bool)

  /** What the position controller reports at the time of a call: the
      current image's rounded screen bounds, whether it is at its minimal
      scale, the edges it touches and its current scale. */
  datatype Position = Position(left: int, right: int, isMinimal: bool, edges: Edges, currentScale: real)

  /** What the data model (and the tile view it feeds) reports: level count,
      screen-nail and load failure for the current image, its rotation and
      size, and the neighbours' screen-nails. */
  datatype ModelView = ModelView(
    levelCount: int,
    screenNail: Option<ScreenNail>,
    failedToLoad: bool,
    imageRotation: int,
    imageWidth: int,
    imageHeight: int,
    prevScreenNail: Option<ScreenNail>,
    nextScreenNail: Option<ScreenNail>)

  /** Exceptions the view raises: a call on the absent model (a null
      dereference), an illegal slide-in direction and an image rotation that
      is not a multiple of 90 degrees in [0, 270]. */
  datatype Fault = NullModel | IllegalDirection(direction: int) | IllegalRotation(rotation: int)

  /** Calls the view makes into its collaborators, in order. */
  datatype Effect =
    | ModelNext
    | ModelPrevious
    | ModelJumpTo(index: int)
    | StartHorizontalSlide(offset: int)
    | StartSlideIn(direction: int)
    | StopAnimation
    | SkipAnimation
    | SetImageSize(width: int, height: int)
    | ZoomIn(x: real, y: real, scale: real)
    | ResetToFullView
    | StartScroll(dx: real, dy: real, nextEnabled: bool, prevEnabled: bool)
    | FlingImage(velocityX: real, velocityY: real)
    | BeginScale(focusX: real, focusY: real)
    | ScaleBy(scale: real, focusX: real, focusY: real)
    | EndScale
    | PositionUp
    | SetExtraScalingRange(enabled: bool)
    | CancelScale
    | EdgeRelease
    | SpinnerStart
    | SingleTap(tapX: int, tapY: int)
    | TileSetModel
    | TileModelInvalidated
    | InvalidateTiles
    | FreeTextures
    | PrepareTextures
    | PauseDraw(nail: ScreenNail)
    | TilePosition(rotation: int)

  /** The two neighbour slots (`ENTRY_PREVIOUS`, `ENTRY_NEXT`). */
  datatype Slot = Previous | Next

  datatype State = State(
    mode: Mode,
    loading: LoadingState,
    queue: Queue,
    openRect: Option<Rect>,
    prev: Entry,
    next: Entry,
    tileNail: Option<ScreenNail>,
    model: Option<nat>,
    hasTapListener: bool,
    imageRotation: int,
    width: int,
    ignoreUp: bool,
    extraScalingPending: bool,
    effects: seq<Effect>)

  /** A newly constructed view of the given width: loading COMPLETE, no
      transition, nothing pending, no screen-nail held, no model. */
  function Initial(width: int): (r: State)
    ensures r.loading == Complete && r.mode == NoTransition && r.model.None?
    ensures r.queue == [] && !r.extraScalingPending && !r.ignoreUp
    ensures Owned(r) == multiset{} && !r.prev.enabled && !r.next.enabled
    ensures Inv(r) && Distinct(r)
    ensures r.width == width && r.effects == []
  {
    State(NoTransition, Complete, [], None, EmptyEntry, EmptyEntry, None, None,
          false, 0, width, false, false, [])
  }

  /* ---------- shared definitions ---------- */

  function Emit(s: State, es: seq<Effect>): State
  {
    s.(effects := s.effects + es)
  }

  function PauseOf(n: Option<ScreenNail>): seq<Effect>
  {
    if n.Some? then [PauseDraw(n.value)] else []
  }

  /** The log `r` continues the log of `s`. */
  predicate Extends(s: State, r: State)
  {
    |s.effects| <= |r.effects| && r.effects[..|s.effects|] == s.effects
  }

  /** The log's most recent entry is `e`. */
  predicate EndsWith(es: seq<Effect>, e: Effect)
  {
    |es| > 0 && es[|es| - 1] == e
  }

  lemma ExtendsTrans(a: State, b: State, c: State)
    requires Extends(a, b) && Extends(b, c)
    ensures Extends(a, c)
  {
    assert c.effects[..|a.effects|] == c.effects[..|b.effects|][..|a.effects|];
  }

  /** The calls that move the data model's current index: `next()`,
      `previous()` and `jumpTo(index)`. */
  predicate MovesIndex(e: Effect)
  {
    e.ModelNext? || e.ModelPrevious? || e.ModelJumpTo?
  }

  /** Number of index changes committed to the data model in a log. */
  function Commits(es: seq<Effect>): nat
  {
    if |es| == 0 then 0
    else (if MovesIndex(es[0]) then 1 else 0) + Commits(es[1..])
  }

  lemma {:induction false} CommitsAppend(a: seq<Effect>, b: seq<Effect>)
    ensures Commits(a + b) == Commits(a) + Commits(b)
  {
    if |a| == 0 {
      assert a + b == b;
    } else {
      assert (a + b)[1..] == a[1..] + b;
      CommitsAppend(a[1..], b);
    }
  }

  lemma CommitsSingle(e: Effect)
    ensures Commits([e]) == if MovesIndex(e) then 1 else 0
  {
    assert [e][1..] == [];
  }

  lemma CommitsPause(n: Option<ScreenNail>)
    ensures Commits(PauseOf(n)) == 0
  {
    if n.Some? {
      CommitsSingle(PauseDraw(n.value));
    }
  }

  /** Appending calls that do not touch the model's index keeps the count. */
  lemma CommitsEmitNone(es: seq<Effect>, extra: seq<Effect>)
    requires forall i :: 0 <= i < |extra| ==> !MovesIndex(extra[i])
    ensures Commits(es + extra) == Commits(es)
  {
    CommitsAppend(es, extra);
    NoCommits(extra);
  }

  lemma {:induction false} NoCommits(es: seq<Effect>)
    requires forall i :: 0 <= i < |es| ==> !MovesIndex(es[i])
    ensures Commits(es) == 0
  {
    if |es| > 0 {
      NoCommits(es[1..]);
    }
  }

  predicate IsSwitching(m: Mode)
  {
    m == SwitchNext || m == SwitchPrevious
  }

  /** A switch in flight still has a model to commit to. The source
      dereferences the model when it commits, so it relies on this. */
  predicate SwitchHasModel(s: State)
  {
    IsSwitching(s.mode) ==> s.model.Some?
  }

  function NailBag(n: Option<ScreenNail>): multiset<ScreenNail>
  {
    if n.Some? then multiset{n.value} else multiset{}
  }

  /** Screen-nails held by the previous slot, the tile view and the next slot. */
  function Owned(s: State): multiset<ScreenNail>
  {
    NailBag(s.prev.nail) + NailBag(s.tileNail) + NailBag(s.next.nail)
  }

  /** No two of three handles are the same screen-nail. */
  predicate Apart(a: Option<ScreenNail>, b: Option<ScreenNail>, c: Option<ScreenNail>)
  {
    && (a.Some? ==> a != b && a != c)
    && (b.Some? ==> b != c)
  }

  /** How often one screen-nail occurs in the bag of three handles. */
  lemma BagCount(a: Option<ScreenNail>, b: Option<ScreenNail>, c: Option<ScreenNail>, n: ScreenNail)
    ensures (NailBag(a) + NailBag(b) + NailBag(c))[n] ==
      (if a == Some(n) then 1 else 0) + (if b == Some(n) then 1 else 0) + (if c == Some(n) then 1 else 0)
  {
  }

  /** `Apart` says of three handles what "no screen-nail occurs twice in
      their bag" says. */
  lemma ApartIsExclusive(a: Option<ScreenNail>, b: Option<ScreenNail>, c: Option<ScreenNail>)
    ensures Apart(a, b, c) <==> forall n :: (NailBag(a) + NailBag(b) + NailBag(c))[n] <= 1
  {
    if Apart(a, b, c) {
      forall n
        ensures (NailBag(a) + NailBag(b) + NailBag(c))[n] <= 1
      {
        BagCount(a, b, c, n);
      }
    }
    if a.Some? {
      BagCount(a, b, c, a.value);
    }
    if b.Some? {
      BagCount(a, b, c, b.value);
    }
  }

  /** No screen-nail is held by two owners at once. */
  predicate Distinct(s: State)
  {
    Apart(s.prev.nail, s.tileNail, s.next.nail)
  }

  /** The pending delayed messages agree with the flags they serve: one
      SHOW_LOADING is pending exactly while loading is INIT, one
      CANCEL_EXTRA_SCALING exactly while the cancellation is pending. */
  predicate Inv(s: State)
  {
    && Count(s.queue, ShowLoading) == (if s.loading == Init then 1 else 0)
    && Count(s.queue, CancelExtraScaling) == (if s.extraScalingPending then 1 else 0)
  }

  /** The loading transitions the code can take in one step (the states
      may also stay as they are). */
  predicate LoadingStep(a: LoadingState, b: LoadingState)
  {
    || a == b
    || (a == Init && b in {Timeout, Complete, Fail})
    || (a == Timeout && b in {Complete, Fail, Init})
    || (a == Complete && b in {Init, Fail})
    || (a == Fail && b in {Init, Complete})
  }

  /* ---------- loading-state machine ---------- */

  predicate HasContent(src: ModelView)
  {
    src.levelCount != 0 || src.screenNail.Some?
  }

  /** `updateLoadingState`: content present -> COMPLETE, else a load failure
      -> FAIL, else (re)enter INIT with a fresh SHOW_LOADING timer, unless
      already in INIT. */
  function UpdateLoadingState(s: State, src: ModelView): (r: State)
    ensures HasContent(src) ==> r.loading == Complete && Count(r.queue, ShowLoading) == 0
    ensures HasContent(src) ==> r.openRect == s.openRect
    ensures !HasContent(src) && src.failedToLoad ==>
      r.loading == Fail && Count(r.queue, ShowLoading) == 0 && r.openRect.None?
    ensures !HasContent(src) && !src.failedToLoad && s.loading != Init ==>
      && r.loading == Init
      && Count(r.queue, ShowLoading) == 1
      && Message(ShowLoading, DELAY_SHOW_LOADING) in r.queue
      && r.openRect == s.openRect
    ensures !HasContent(src) && !src.failedToLoad && s.loading == Init ==> r == s
    ensures forall w :: w != ShowLoading ==> Count(r.queue, w) == Count(s.queue, w)
    ensures r.(loading := s.loading, queue := s.queue, openRect := s.openRect) == s
    ensures LoadingStep(s.loading, r.loading)
    ensures r.loading != Timeout
    ensures Inv(s) ==> Inv(r)
  {
    if HasContent(src) then
      s.(queue := RemoveMessages(s.queue, ShowLoading), loading := Complete)
    else if src.failedToLoad then
      s.(queue := RemoveMessages(s.queue, ShowLoading), loading := Fail, openRect := None)
    else if s.loading != Init then
      s.(loading := Init,
         queue := Send(RemoveMessages(s.queue, ShowLoading), Message(ShowLoading, DELAY_SHOW_LOADING)))
    else s
  }

  /** Delivery of SHOW_LOADING: INIT becomes TIMEOUT, starts the spinner and
      drops the open-animation rectangle; in any other state nothing happens
      beyond consuming the message. */
  function ShowLoadingArrived(s: State): (r: State)
    ensures s.loading == Init ==>
      r.loading == Timeout && r.openRect.None? && r.effects == s.effects + [SpinnerStart]
    ensures s.loading != Init ==> r == s
    ensures r.loading == Timeout ==> s.loading in {Init, Timeout}
    ensures r.(loading := s.loading, openRect := s.openRect, effects := s.effects) == s
    ensures Commits(r.effects) == Commits(s.effects)
  {
    CommitsEmitNone(s.effects, [SpinnerStart]);
    if s.loading == Init then
      Emit(s.(openRect := None, loading := Timeout), [SpinnerStart])
    else s
  }

  /* ---------- screen-nail ownership and index commits ---------- */

  /** `switchToNextImage`: the tile view's screen-nail moves to the previous
      slot, the next slot's moves to the tile view, the next slot keeps no
      reference, and the model advances by one. */
  function SwitchToNextImage(s: State): (r: State)
    requires s.model.Some?
    ensures r.prev.nail == s.tileNail && r.tileNail == s.next.nail && r.next.nail.None?
    ensures r.prev.enabled <==> s.tileNail.Some?
    ensures r.next.enabled == s.next.enabled
    ensures Extends(s, r)
    ensures Commits(r.effects) == Commits(s.effects) + 1
    ensures EndsWith(r.effects, ModelNext)
    ensures s.prev.nail.Some? && s.prev.nail != s.tileNail ==> PauseDraw(s.prev.nail.value) in r.effects
    ensures r.(prev := s.prev, next := s.next, tileNail := s.tileNail, effects := s.effects) == s
  {
    var (prev1, paused) := UpdateScreenNail(s.prev, s.tileNail);
    var (next1, released) := ReleaseScreenNail(s.next);
    var log := [InvalidateTiles] + PauseOf(paused) + [ModelNext];
    CommitsAppend(s.effects, log);
    assert Commits(log) == 1 by {
      CommitsAppend([InvalidateTiles] + PauseOf(paused), [ModelNext]);
      CommitsAppend([InvalidateTiles], PauseOf(paused));
      CommitsSingle(InvalidateTiles);
      CommitsSingle(ModelNext);
      CommitsPause(paused);
    }
    s.(prev := prev1, next := next1, tileNail := released, effects := s.effects + log)
  }

  /** Shifting three handles one place along, dropping the first and
      emptying the last, loses exactly the first. */
  lemma BagShift(a: Option<ScreenNail>, b: Option<ScreenNail>, c: Option<ScreenNail>)
    ensures NailBag(a) + NailBag(b) + NailBag(c) == NailBag(b) + NailBag(c) + NailBag(None) + NailBag(a)
    ensures NailBag(c) + NailBag(b) + NailBag(a) == NailBag(None) + NailBag(c) + NailBag(b) + NailBag(a)
  {
  }

  /** A switch to the next image is a move: the screen-nail dropped from
      the previous slot is the only one that leaves the owners. */
  lemma SwitchToNextMovesNails(s: State)
    requires s.model.Some?
    ensures Owned(s) == Owned(SwitchToNextImage(s)) + NailBag(s.prev.nail)
  {
    var r := SwitchToNextImage(s);
    assert r.prev.nail == s.tileNail && r.tileNail == s.next.nail && r.next.nail == None;
    BagShift(s.prev.nail, s.tileNail, s.next.nail);
  }

  /** No handle ends up held twice, and the dropped one is paused. */
  lemma SwitchToNextKeepsDistinct(s: State)
    requires s.model.Some? && Distinct(s)
    ensures var r := SwitchToNextImage(s);
      && Distinct(r)
      && (s.prev.nail.Some? ==> PauseDraw(s.prev.nail.value) in r.effects)
  {
  }

  /** `switchToPreviousImage`: the mirror image of `SwitchToNextImage`. */
  function SwitchToPreviousImage(s: State): (r: State)
    requires s.model.Some?
    ensures r.next.nail == s.tileNail && r.tileNail == s.prev.nail && r.prev.nail.None?
    ensures r.next.enabled <==> s.tileNail.Some?
    ensures r.prev.enabled == s.prev.enabled
    ensures Extends(s, r)
    ensures Commits(r.effects) == Commits(s.effects) + 1
    ensures EndsWith(r.effects, ModelPrevious)
    ensures s.next.nail.Some? && s.next.nail != s.tileNail ==> PauseDraw(s.next.nail.value) in r.effects
    ensures r.(prev := s.prev, next := s.next, tileNail := s.tileNail, effects := s.effects) == s
  {
    var (next1, paused) := UpdateScreenNail(s.next, s.tileNail);
    var (prev1, released) := ReleaseScreenNail(s.prev);
    var log := [InvalidateTiles] + PauseOf(paused) + [ModelPrevious];
    CommitsAppend(s.effects, log);
    assert Commits(log) == 1 by {
      CommitsAppend([InvalidateTiles] + PauseOf(paused), [ModelPrevious]);
      CommitsAppend([InvalidateTiles], PauseOf(paused));
      CommitsSingle(InvalidateTiles);
      CommitsSingle(ModelPrevious);
      CommitsPause(paused);
    }
    s.(prev := prev1, next := next1, tileNail := released, effects := s.effects + log)
  }

  /** The mirror image of `SwitchToNextMovesNails`. */
  lemma SwitchToPreviousMovesNails(s: State)
    requires s.model.Some?
    ensures Owned(s) == Owned(SwitchToPreviousImage(s)) + NailBag(s.next.nail)
  {
    var r := SwitchToPreviousImage(s);
    assert r.next.nail == s.tileNail && r.tileNail == s.prev.nail && r.prev.nail == None;
    BagShift(s.next.nail, s.tileNail, s.prev.nail);
  }

  /** No handle ends up held twice, and the dropped one is paused. */
  lemma SwitchToPreviousKeepsDistinct(s: State)
    requires s.model.Some? && Distinct(s)
    ensures var r := SwitchToPreviousImage(s);
      && Distinct(r)
      && (s.next.nail.Some? ==> PauseDraw(s.next.nail.value) in r.effects)
  {
  }

  /** The screen-nails have moved as a switch to the next image moves them:
      the previous slot holds the tile view's, the tile view the next slot's,
      the next slot none, and the previous slot's old handle was paused. */
  predicate MovedToNext(s: State, r: State)
  {
    && r.prev.nail == s.tileNail && r.tileNail == s.next.nail && r.next.nail.None?
    && (s.prev.nail.Some? && s.prev.nail != s.tileNail ==> PauseDraw(s.prev.nail.value) in r.effects)
  }

  /** The mirror image of `MovedToNext`. */
  predicate MovedToPrevious(s: State, r: State)
  {
    && r.next.nail == s.tileNail && r.tileNail == s.prev.nail && r.prev.nail.None?
    && (s.next.nail.Some? && s.next.nail != s.tileNail ==> PauseDraw(s.next.nail.value) in r.effects)
  }

  /** `onTransitionComplete`: the mode always returns to NONE; a finished
      switch moves the screen-nails and commits its index change when a
      model is present; every other mode finishes without touching the
      model. */
  function OnTransitionComplete(s: State): (r: State)
    ensures r.mode == NoTransition
    ensures Extends(s, r)
    ensures s.model.Some? && s.mode == SwitchNext ==>
      Commits(r.effects) == Commits(s.effects) + 1 && EndsWith(r.effects, ModelNext) && MovedToNext(s, r)
    ensures s.model.Some? && s.mode == SwitchPrevious ==>
      Commits(r.effects) == Commits(s.effects) + 1 && EndsWith(r.effects, ModelPrevious) && MovedToPrevious(s, r)
    ensures s.model.None? || !IsSwitching(s.mode) ==> r == s.(mode := NoTransition)
    ensures r.loading == s.loading && r.queue == s.queue && r.openRect == s.openRect
    ensures r.ignoreUp == s.ignoreUp && r.extraScalingPending == s.extraScalingPending
    ensures r.(prev := s.prev, next := s.next, tileNail := s.tileNail, mode := s.mode, effects := s.effects) == s
  {
    var s1 := s.(mode := NoTransition);
    assert s1.effects == s.effects;
    if s.model.None? || !IsSwitching(s.mode) then s1
    else if s.mode == SwitchNext then
      var r := SwitchToNextImage(s1);
      assert r.loading == s.loading && r.queue == s.queue && r.mode == NoTransition;
      r
    else
      var r := SwitchToPreviousImage(s1);
      assert r.loading == s.loading && r.queue == s.queue && r.mode == NoTransition;
      r
  }

  /** Completing a transition never duplicates a screen-nail handle. */
  lemma TransitionCompleteKeepsDistinct(s: State)
    requires Distinct(s)
    ensures Distinct(OnTransitionComplete(s))
  {
    var s1 := s.(mode := NoTransition);
    if s.model.None? || !IsSwitching(s.mode) {
      assert OnTransitionComplete(s) == s1;
    } else if s.mode == SwitchNext {
      assert OnTransitionComplete(s) == SwitchToNextImage(s1);
      SwitchToNextKeepsDistinct(s1);
    } else {
      assert OnTransitionComplete(s) == SwitchToPreviousImage(s1);
      SwitchToPreviousKeepsDistinct(s1);
    }
  }

  /** `notifyTransitionComplete`: posts the completion signal; nothing
      happens until it is delivered. */
  function NotifyTransitionComplete(s: State): (r: State)
    ensures Count(r.queue, TransitionComplete) == Count(s.queue, TransitionComplete) + 1
    ensures Message(TransitionComplete, 0) in r.queue
    ensures r.(queue := s.queue) == s
    ensures Inv(s) ==> Inv(r)
  {
    s.(queue := Send(s.queue, Message(TransitionComplete, 0)))
  }

  /** The handler's `handleMessage`: the delivered message leaves the queue
      and is acted on by kind. */
  function HandleMessage(s: State, m: Message): (r: State)
    requires m in s.queue
    ensures m.what == TransitionComplete ==> r.mode == NoTransition
    ensures m.what == ShowLoading ==>
      (s.loading == Init <==> r.loading == Timeout && r.openRect.None? && s.loading != Timeout)
    ensures m.what == ShowLoading && s.loading != Init ==> r.loading == s.loading
    ensures m.what == CancelExtraScaling ==>
      !r.extraScalingPending && r.effects == s.effects + [CancelScale, SetExtraScalingRange(false)]
    ensures m.what != TransitionComplete ==> r.mode == s.mode && Commits(r.effects) == Commits(s.effects)
    ensures m.what == TransitionComplete ==>
      Commits(r.effects) == Commits(s.effects) + (if IsSwitching(s.mode) && s.model.Some? then 1 else 0)
    ensures r.loading != s.loading ==> s.loading == Init && r.loading == Timeout
    ensures |r.queue| == |s.queue| - 1
    ensures multiset(r.queue) == multiset(s.queue) - multiset{m}
    ensures m.what != ShowLoading ==> r.loading == s.loading && r.openRect == s.openRect
    ensures m.what == CancelExtraScaling ==>
      r == s.(queue := r.queue, extraScalingPending := false, effects := r.effects)
    ensures Extends(s, r)
    ensures Inv(s) ==> Inv(r)
  {
    var s1 := s.(queue := Take(s.queue, m));
    match m.what
    case TransitionComplete => OnTransitionComplete(s1)
    case ShowLoading =>
      CountPositive(s.queue, m);
      ShowLoadingArrived(s1)
    case CancelExtraScaling =>
      CountPositive(s.queue, m);
      CommitsEmitNone(s1.effects, [CancelScale, SetExtraScalingRange(false)]);
      Emit(s1.(extraScalingPending := false), [CancelScale, SetExtraScalingRange(false)])
  }

  /* ---------- neighbour slots ---------- */

  function GetEntry(s: State, which: Slot): Entry
  {
    if which == Previous then s.prev else s.next
  }

  /** `updateScreenNailEntry`: the slot takes the given screen-nail, except
      while a switch is in flight, when updates are ignored. */
  function UpdateScreenNailEntry(s: State, which: Slot, n: Option<ScreenNail>): (r: State)
    ensures IsSwitching(s.mode) ==> r == s
    ensures !IsSwitching(s.mode) ==>
      GetEntry(r, which).nail == n && (GetEntry(r, which).enabled <==> n.Some?)
    ensures which == Previous ==> r.next == s.next
    ensures which == Next ==> r.prev == s.prev
    ensures r.(prev := s.prev, next := s.next, effects := s.effects) == s
    ensures Extends(s, r) && Commits(r.effects) == Commits(s.effects)
  {
    if IsSwitching(s.mode) then s
    else
      var (e, paused) := UpdateScreenNail(GetEntry(s, which), n);
      CommitsAppend(s.effects, PauseOf(paused));
      var s1 := if which == Previous then s.(prev := e) else s.(next := e);
      Emit(s1, PauseOf(paused))
  }

  function Max(a: int, b: int): int { if a >= b then a else b }

  /** Where `layoutScreenNails` puts the previous slot's right edge. */
  function PrevRightEdge(e: Entry, left: int, right: int, width: int): int
  {
    left - (IMAGE_GAP + Max(GapToSide(right - left, width), EntryGapToSide(e, width)))
  }

  /** Where `layoutScreenNails` puts the next slot's left edge. */
  function NextLeftEdge(e: Entry, left: int, right: int, width: int): int
  {
    right + (IMAGE_GAP + Max(GapToSide(right - left, width), EntryGapToSide(e, width)))
  }

  /** Each enabled slot sits where `layoutScreenNails` puts it for these
      bounds, and is visible exactly when its edge facing the current image
      is inside the view. */
  predicate LaidOut(s: State, pos: Position)
  {
    && (s.prev.enabled ==>
          && RightEdge(s.prev) == PrevRightEdge(s.prev, pos.left, pos.right, s.width)
          && (s.prev.visible <==> RightEdge(s.prev) > 0))
    && (s.next.enabled ==>
          && LeftEdge(s.next) == NextLeftEdge(s.next, pos.left, pos.right, s.width)
          && (s.next.visible <==> LeftEdge(s.next) < s.width))
  }

  /** `layoutScreenNails`: each enabled neighbour sits IMAGE_GAP plus the
      larger of the two centring gaps away from the current image, and is
      visible exactly when the edge facing the current image is inside the
      view. Disabled slots are left untouched. */
  function LayoutScreenNails(s: State, pos: Position): (r: State)
    ensures s.prev.enabled ==>
      && RightEdge(r.prev) == PrevRightEdge(s.prev, pos.left, pos.right, s.width)
      && pos.left - RightEdge(r.prev) >= IMAGE_GAP + GapToSide(pos.right - pos.left, s.width)
      && pos.left - RightEdge(r.prev) >= IMAGE_GAP + EntryGapToSide(s.prev, s.width)
      && (r.prev.visible <==> RightEdge(r.prev) > 0)
    ensures s.next.enabled ==>
      && LeftEdge(r.next) == NextLeftEdge(s.next, pos.left, pos.right, s.width)
      && LeftEdge(r.next) - pos.right >= IMAGE_GAP + GapToSide(pos.right - pos.left, s.width)
      && LeftEdge(r.next) - pos.right >= IMAGE_GAP + EntryGapToSide(s.next, s.width)
      && (r.next.visible <==> LeftEdge(r.next) < s.width)
    ensures !s.prev.enabled ==> r.prev == s.prev
    ensures !s.next.enabled ==> r.next == s.next
    ensures r.prev.(visible := s.prev.visible, offsetX := s.prev.offsetX) == s.prev
    ensures r.next.(visible := s.next.visible, offsetX := s.next.offsetX) == s.next
    ensures r.(prev := s.prev, next := s.next) == s
    ensures LaidOut(r, pos)
  {
    var prev1 :=
      if s.prev.enabled then LayoutRightEdgeAt(s.prev, PrevRightEdge(s.prev, pos.left, pos.right, s.width))
      else s.prev;
    var next1 :=
      if s.next.enabled then LayoutLeftEdgeAt(s.next, NextLeftEdge(s.next, pos.left, pos.right, s.width), s.width)
      else s.next;
    s.(prev := prev1, next := next1)
  }

  /** Laying out twice with unchanged bounds gives the same result as once. */
  lemma LayoutIdempotent(s: State, pos: Position)
    ensures LayoutScreenNails(LayoutScreenNails(s, pos), pos) == LayoutScreenNails(s, pos)
  {
    var r := LayoutScreenNails(s, pos);
    assert EntryGapToSide(r.prev, s.width) == EntryGapToSide(s.prev, s.width) by {
      assert RotatedWidth(r.prev) == RotatedWidth(s.prev);
    }
    assert EntryGapToSide(r.next, s.width) == EntryGapToSide(s.next, s.width) by {
      assert RotatedWidth(r.next) == RotatedWidth(s.next);
    }
  }

  /** `setPosition`: the tile view is placed for the current rotation,
      which must be 0, 90, 180 or 270 (anything else raises before the
      slots move), and then the neighbour slots are laid out around the
      current image. */
  function SetPosition(s: State, pos: Position): (r: Result<State, Fault>)
    ensures r.Err? <==> s.imageRotation !in {0, 90, 180, 270}
    ensures r.Err? ==> r.error == IllegalRotation(s.imageRotation)
    ensures r.Ok? ==>
      && r.value.prev == LayoutScreenNails(s, pos).prev
      && r.value.next == LayoutScreenNails(s, pos).next
      && r.value.effects == s.effects + [TilePosition(s.imageRotation)]
      && r.value.(prev := s.prev, next := s.next, effects := s.effects) == s
    ensures r.Ok? ==> Commits(r.value.effects) == Commits(s.effects)
  {
    CommitsEmitNone(s.effects, [TilePosition(s.imageRotation)]);
    if s.imageRotation !in {0, 90, 180, 270} then Err(IllegalRotation(s.imageRotation))
    else Ok(LayoutScreenNails(Emit(s, [TilePosition(s.imageRotation)]), pos))
  }

  /* ---------- swipe and snap ---------- */

  /** `stopCurrentSwipingIfNeeded`: a switch in flight has its animation
      stopped and is completed at once, so that a new swipe can start (fast
      swiping). */
  function StopCurrentSwipingIfNeeded(s: State): (r: State)
    requires SwitchHasModel(s)
    ensures IsSwitching(s.mode) ==> r.mode == NoTransition && Commits(r.effects) == Commits(s.effects) + 1
    ensures IsSwitching(s.mode) ==> |r.effects| > |s.effects| && r.effects[|s.effects|] == StopAnimation
    ensures s.mode == SwitchNext ==> EndsWith(r.effects, ModelNext) && MovedToNext(s, r)
    ensures s.mode == SwitchPrevious ==> EndsWith(r.effects, ModelPrevious) && MovedToPrevious(s, r)
    ensures !IsSwitching(s.mode) ==> r == s
    ensures r.(prev := s.prev, next := s.next, tileNail := s.tileNail, mode := s.mode, effects := s.effects) == s
    ensures Extends(s, r)
    ensures r.loading == s.loading && r.queue == s.queue && r.ignoreUp == s.ignoreUp
    ensures r.extraScalingPending == s.extraScalingPending && r.model == s.model && r.width == s.width
  {
    if !IsSwitching(s.mode) then s
    else
      var s0 := Emit(s.(mode := NoTransition), [StopAnimation]);
      CommitsEmitNone(s.effects, [StopAnimation]);
      assert Extends(s, s0);
      if s.mode == SwitchNext then
        var r := SwitchToNextImage(s0);
        ExtendsTrans(s, s0, r);
        assert r.effects[|s.effects|] == s0.effects[|s.effects|];
        r
      else
        var r := SwitchToPreviousImage(s0);
        ExtendsTrans(s, s0, r);
        assert r.effects[|s.effects|] == s0.effects[|s.effects|];
        r
  }

  /** A vertical fling on a zoomed-in image that is not pinned at both the
      top and bottom edges is kept for scrolling, not swiping. */
  predicate VerticalFlingBlocks(pos: Position, vx: real, vy: real)
  {
    !pos.isMinimal && Abs(vy) > Abs(vx) && (!pos.edges.top || !pos.edges.bottom)
  }

  /** Fast leftward fling while the image may leave by its right side. */
  predicate WantsNext(pos: Position, vx: real)
  {
    vx < -SWIPE_THRESHOLD && (pos.isMinimal || pos.edges.right)
  }

  /** Fast rightward fling while the image may leave by its left side. */
  predicate WantsPrevious(pos: Position, vx: real)
  {
    vx > SWIPE_THRESHOLD && (pos.isMinimal || pos.edges.left)
  }

  predicate CanSwipeFrom(m: Mode)
  {
    m == NoTransition || IsSwitching(m)
  }

  /** Whether `swipeImages` starts a switch, stated from its inputs: the
      mode admits a swipe, a vertical fling does not take precedence, and the
      fling points at a neighbour that is enabled once any switch in flight
      has been committed. */
  predicate SwipeFires(s: State, vx: real, vy: real, pos: Position)
    requires SwitchHasModel(s)
  {
    && CanSwipeFrom(s.mode)
    && !VerticalFlingBlocks(pos, vx, vy)
    && ((WantsNext(pos, vx) && StopCurrentSwipingIfNeeded(s).next.enabled)
        || (!WantsNext(pos, vx) && WantsPrevious(pos, vx) && StopCurrentSwipingIfNeeded(s).prev.enabled))
  }

  /** Where a switch's slide is aimed: the neighbour's offset less half the
      view width, in Java's integer division. */
  function SlideTarget(e: Entry, width: int): int
  {
    e.offsetX - JavaDiv(width, 2)
  }

  /** `swipeImages`: a fast fling starts a switch to the neighbour it points
      at, after committing any switch already in flight. */
  function SwipeImages(s: State, vx: real, vy: real, pos: Position): (r: (bool, State))
    requires SwitchHasModel(s)
    ensures !CanSwipeFrom(s.mode) ==> r == (false, s)
    ensures VerticalFlingBlocks(pos, vx, vy) ==> r == (false, s)
    ensures r.0 <==> SwipeFires(s, vx, vy, pos)
    ensures r.0 ==>
      || (r.1.mode == SwitchNext && vx < -SWIPE_THRESHOLD && r.1.next.enabled)
      || (r.1.mode == SwitchPrevious && vx > SWIPE_THRESHOLD && r.1.prev.enabled)
    ensures r.0 && r.1.mode == SwitchNext ==>
      EndsWith(r.1.effects, StartHorizontalSlide(SlideTarget(r.1.next, s.width)))
    ensures r.0 && r.1.mode == SwitchPrevious ==>
      EndsWith(r.1.effects, StartHorizontalSlide(SlideTarget(r.1.prev, s.width)))
    ensures !r.0 ==> r.1.mode == s.mode || r.1.mode == NoTransition
    ensures Extends(s, r.1)
    ensures r.1.loading == s.loading && r.1.queue == s.queue && r.1.ignoreUp == s.ignoreUp
    ensures r.1.extraScalingPending == s.extraScalingPending && r.1.model == s.model
  {
    if !CanSwipeFrom(s.mode) || VerticalFlingBlocks(pos, vx, vy) then (false, s)
    else if !WantsNext(pos, vx) && !WantsPrevious(pos, vx) then (false, s)
    else
      var s1 := StopCurrentSwipingIfNeeded(s);
      if WantsNext(pos, vx) then
        if s1.next.enabled then
          (true, Emit(s1.(mode := SwitchNext), [StartHorizontalSlide(SlideTarget(s1.next, s.width))]))
        else (false, s1)
      else if s1.prev.enabled then
        (true, Emit(s1.(mode := SwitchPrevious), [StartHorizontalSlide(SlideTarget(s1.prev, s.width))]))
      else (false, s1)
  }

  /** What a swipe leaves alone: one that interrupts no switch changes only
      the mode and the log; one that interrupts a switch changes, beyond
      committing it, only the mode and the log. */
  lemma SwipeFrame(s: State, vx: real, vy: real, pos: Position)
    requires SwitchHasModel(s)
    ensures var r := SwipeImages(s, vx, vy, pos);
      && (!SwipeInterrupts(s, vx, vy, pos) ==> r.1.(mode := s.mode, effects := s.effects) == s)
      && (SwipeInterrupts(s, vx, vy, pos) ==>
            var t := StopCurrentSwipingIfNeeded(s);
            r.1.(mode := NoTransition, effects := t.effects) == t)
  {
    var r := SwipeImages(s, vx, vy, pos);
    if !CanSwipeFrom(s.mode) || VerticalFlingBlocks(pos, vx, vy) || (!WantsNext(pos, vx) && !WantsPrevious(pos, vx)) {
      assert r.1 == s;
    } else {
      var t := StopCurrentSwipingIfNeeded(s);
      assert r.1 == t || r.1 == Emit(t.(mode := r.1.mode), [StartHorizontalSlide(SlideTarget(GetEntry(t, if r.1.mode == SwitchNext then Next else Previous), s.width))]);
      if !IsSwitching(s.mode) {
        assert t == s;
      }
    }
  }

  /** The fling interrupts a switch in flight: `swipeImages` commits it
      before looking for a neighbour, whether or not a new switch starts. */
  predicate SwipeInterrupts(s: State, vx: real, vy: real, pos: Position)
  {
    IsSwitching(s.mode) && !VerticalFlingBlocks(pos, vx, vy) && (WantsNext(pos, vx) || WantsPrevious(pos, vx))
  }

  /** A swipe commits an index change only when it interrupts a switch in
      flight (fast swiping), and then exactly once; starting from rest it
      commits nothing, so the new switch's index change waits for the
      completion signal. */
  lemma SwipeCommits(s: State, vx: real, vy: real, pos: Position)
    requires SwitchHasModel(s)
    ensures var r := SwipeImages(s, vx, vy, pos);
      Commits(r.1.effects) == Commits(s.effects) + (if SwipeInterrupts(s, vx, vy, pos) then 1 else 0)
  {
    var r := SwipeImages(s, vx, vy, pos);
    var s1 := StopCurrentSwipingIfNeeded(s);
    if r.0 {
      var e := if r.1.mode == SwitchNext then s1.next else s1.prev;
      CommitsEmitNone(s1.effects, [StartHorizontalSlide(SlideTarget(e, s.width))]);
    }
  }

  /** Committing an interrupted switch never duplicates a screen-nail handle. */
  lemma StopSwipingKeepsDistinct(s: State)
    requires SwitchHasModel(s) && Distinct(s)
    ensures Distinct(StopCurrentSwipingIfNeeded(s))
  {
    var s0 := Emit(s.(mode := NoTransition), [StopAnimation]);
    if s.mode == SwitchNext {
      SwitchToNextKeepsDistinct(s0);
    } else if s.mode == SwitchPrevious {
      SwitchToPreviousKeepsDistinct(s0);
    }
  }

  /** Swiping moves screen-nails between owners without duplicating any. */
  lemma SwipeKeepsDistinct(s: State, vx: real, vy: real, pos: Position)
    requires SwitchHasModel(s) && Distinct(s)
    ensures Distinct(SwipeImages(s, vx, vy, pos).1)
  {
    var r := SwipeImages(s, vx, vy, pos);
    if CanSwipeFrom(s.mode) && !VerticalFlingBlocks(pos, vx, vy)
       && (WantsNext(pos, vx) || WantsPrevious(pos, vx))
    {
      var s1 := StopCurrentSwipingIfNeeded(s);
      StopSwipingKeepsDistinct(s);
      assert r.1.prev == s1.prev && r.1.tileNail == s1.tileNail && r.1.next == s1.next;
    }
  }

  /** Drag distance past which releasing the image switches to a neighbour. */
  function SnapThreshold(pos: Position, width: int): int
  {
    SWITCH_THRESHOLD + GapToSide(pos.right - pos.left, width)
  }

  /** The image was dragged far enough left to reveal the next one. */
  predicate SnapsToNext(s: State, pos: Position)
  {
    s.next.enabled && SnapThreshold(pos, s.width) < s.width - pos.right
  }

  /** The image was dragged far enough right to reveal the previous one. */
  predicate SnapsToPrevious(s: State, pos: Position)
  {
    s.prev.enabled && SnapThreshold(pos, s.width) < pos.left
  }

  /** The two snap tests never pass together. The gap is half the width
      the image leaves spare, so a drag past the threshold on one side leaves
      less than the threshold on the other: the order of the tests in
      `snapToNeighborImage` never decides which neighbour is chosen. */
  lemma SnapsExclusive(s: State, pos: Position)
    ensures !(SnapsToNext(s, pos) && SnapsToPrevious(s, pos))
  {
  }

  /** `snapToNeighborImage`: on release with no transition active, a far
      enough drag starts a switch toward the revealed neighbour. */
  function SnapToNeighborImage(s: State, pos: Position): (r: (bool, State))
    ensures r.0 <==> s.mode == NoTransition && (SnapsToNext(s, pos) || SnapsToPrevious(s, pos))
    ensures r.0 && SnapsToNext(s, pos) ==> r.1.mode == SwitchNext
    ensures r.0 && !SnapsToNext(s, pos) ==> r.1.mode == SwitchPrevious
    ensures r.0 ==>
      r.1.effects == s.effects +
        [StartHorizontalSlide(SlideTarget(if r.1.mode == SwitchNext then s.next else s.prev, s.width))]
    ensures r.0 ==> r.1.(mode := s.mode, effects := s.effects) == s
    ensures !r.0 ==> r.1 == s
    ensures Commits(r.1.effects) == Commits(s.effects)
  {
    CommitsEmitNone(s.effects, [StartHorizontalSlide(SlideTarget(s.next, s.width))]);
    CommitsEmitNone(s.effects, [StartHorizontalSlide(SlideTarget(s.prev, s.width))]);
    if s.mode != NoTransition then (false, s)
    else if SnapsToNext(s, pos) then
      (true, Emit(s.(mode := SwitchNext), [StartHorizontalSlide(SlideTarget(s.next, s.width))]))
    else if SnapsToPrevious(s, pos) then
      (true, Emit(s.(mode := SwitchPrevious), [StartHorizontalSlide(SlideTarget(s.prev, s.width))]))
    else (false, s)
  }

  /* ---------- host-facing operations ---------- */

  /** `setModel`: a different model replaces the old one, is handed to the
      tile view and, when present, resets the image size. */
  function SetModel(s: State, m: Option<nat>): (r: State)
    ensures r.model == m
    ensures Extends(s, r)
    ensures s.model == m ==> r == s
    ensures s.model != m ==> TileSetModel in r.effects[|s.effects|..]
    ensures s.model != m && m.Some? ==> EndsWith(r.effects, SetImageSize(0, 0))
    ensures r.(model := s.model, effects := s.effects) == s
    ensures Commits(r.effects) == Commits(s.effects)
  {
    CommitsEmitNone(s.effects, [TileSetModel]);
    CommitsEmitNone(s.effects + [TileSetModel], [SetImageSize(0, 0)]);
    if s.model == m then s
    else
      var s1 := Emit(s.(model := m), [TileSetModel]);
      assert s1.effects[|s.effects|] == TileSetModel;
      assert m.Some? ==> Emit(s1, [SetImageSize(0, 0)]).effects[|s.effects|] == TileSetModel;
      if m.Some? then Emit(s1, [SetImageSize(0, 0)]) else s1
  }

  function SetPhotoTapListener(s: State, present: bool): (r: State)
    ensures r.hasTapListener == present
    ensures r.(hasTapListener := s.hasTapListener) == s
  {
    s.(hasTapListener := present)
  }

  /** `notifyImageInvalidated(which)`: -1 and 1 refresh that neighbour slot
      from the model and lay the slots out again; 0 refreshes the current
      image's rotation and size and re-evaluates the loading state; any other
      value is ignored. Reading the absent model raises. */
  function NotifyImageInvalidated(s: State, which: int, src: ModelView, pos: Position): (r: Result<State, Fault>)
    ensures which !in {-1, 0, 1} ==> r == Ok(s)
    ensures which in {-1, 0, 1} ==> (r.Err? <==> s.model.None?)
    ensures r.Err? ==> r.error == NullModel
    ensures r.Ok? ==> Extends(s, r.value) && r.value.mode == s.mode
    ensures r.Ok? && which == -1 ==>
      && LaidOut(r.value, pos)
      && r.value.tileNail == s.tileNail
      && r.value.next.(visible := s.next.visible, offsetX := s.next.offsetX) == s.next
      && (!IsSwitching(s.mode) ==>
            r.value.prev.nail == src.prevScreenNail && (r.value.prev.enabled <==> src.prevScreenNail.Some?))
      && (IsSwitching(s.mode) ==> r.value.prev.(visible := s.prev.visible, offsetX := s.prev.offsetX) == s.prev)
    ensures r.Ok? && which == 1 ==>
      && LaidOut(r.value, pos)
      && r.value.tileNail == s.tileNail
      && r.value.prev.(visible := s.prev.visible, offsetX := s.prev.offsetX) == s.prev
      && (!IsSwitching(s.mode) ==>
            r.value.next.nail == src.nextScreenNail && (r.value.next.enabled <==> src.nextScreenNail.Some?))
      && (IsSwitching(s.mode) ==> r.value.next.(visible := s.next.visible, offsetX := s.next.offsetX) == s.next)
    ensures r.Ok? && which == 0 ==>
      && r.value.(loading := s.loading, queue := s.queue, openRect := s.openRect, tileNail := s.tileNail,
                  imageRotation := s.imageRotation, effects := s.effects) == s
      && r.value.tileNail == src.screenNail
      && r.value.imageRotation == src.imageRotation
      && r.value.loading == UpdateLoadingState(s, src).loading
      && r.value.queue == UpdateLoadingState(s, src).queue
      && r.value.openRect == UpdateLoadingState(s, src).openRect
      && TileModelInvalidated in r.value.effects[|s.effects|..]
      && ReportsImageSize(src, r.value.effects[|s.effects|..])
    ensures r.Ok? ==> Commits(r.value.effects) == Commits(s.effects)
    ensures r.Ok? && which != 0 ==> r.value.loading == s.loading
    ensures r.Ok? && which != 0 ==> r.value.(prev := s.prev, next := s.next, effects := s.effects) == s
    ensures r.Ok? && Inv(s) ==> Inv(r.value)
  {
    if which == -1 then
      if s.model.None? then Err(NullModel)
      else Ok(LayoutScreenNails(UpdateScreenNailEntry(s, Previous, src.prevScreenNail), pos))
    else if which == 1 then
      if s.model.None? then Err(NullModel)
      else Ok(LayoutScreenNails(UpdateScreenNailEntry(s, Next, src.nextScreenNail), pos))
    else if which == 0 then
      if s.model.None? then Err(NullModel)
      else Ok(RefreshCurrentImage(s, src))
    else Ok(s)
  }

  /** Case 0 of `notifyImageInvalidated`, with the model present: the tile
      view re-reads the model, taking its screen-nail; the rotation is
      refreshed; the size goes to the position controller, swapped on a
      quarter turn; and the loading state is re-evaluated. */
  function RefreshCurrentImage(s: State, src: ModelView): (r: State)
    ensures r.(loading := s.loading, queue := s.queue, openRect := s.openRect, tileNail := s.tileNail,
               imageRotation := s.imageRotation, effects := s.effects) == s
    ensures r.tileNail == src.screenNail && r.imageRotation == src.imageRotation
    ensures r.loading == UpdateLoadingState(s, src).loading
    ensures r.queue == UpdateLoadingState(s, src).queue
    ensures r.openRect == UpdateLoadingState(s, src).openRect
    ensures Extends(s, r)
    ensures TileModelInvalidated in r.effects[|s.effects|..]
    ensures ReportsImageSize(src, r.effects[|s.effects|..])
    ensures Commits(r.effects) == Commits(s.effects)
    ensures Inv(s) ==> Inv(r)
  {
    var size :=
      if IsRotated90Family(src.imageRotation) then SetImageSize(src.imageHeight, src.imageWidth)
      else SetImageSize(src.imageWidth, src.imageHeight);
    var s1 := Emit(s.(imageRotation := src.imageRotation, tileNail := src.screenNail), [TileModelInvalidated, size]);
    CommitsEmitNone(s.effects, [TileModelInvalidated, size]);
    UpdateLoadingStateFrame(s1, s, src);
    UpdateLoadingState(s1, src)
  }

  /** The log tells the position controller the current image's size,
      width and height swapped when it is turned a quarter. */
  predicate ReportsImageSize(src: ModelView, es: seq<Effect>)
  {
    && (IsRotated90Family(src.imageRotation) ==> SetImageSize(src.imageHeight, src.imageWidth) in es)
    && (!IsRotated90Family(src.imageRotation) ==> SetImageSize(src.imageWidth, src.imageHeight) in es)
  }

  /** The loading update reads and writes only the loading state, the queue
      and the open rectangle. */
  lemma UpdateLoadingStateFrame(a: State, b: State, src: ModelView)
    requires a.loading == b.loading && a.queue == b.queue && a.openRect == b.openRect
    ensures UpdateLoadingState(a, src).loading == UpdateLoadingState(b, src).loading
    ensures UpdateLoadingState(a, src).queue == UpdateLoadingState(b, src).queue
    ensures UpdateLoadingState(a, src).openRect == UpdateLoadingState(b, src).openRect
  {
  }

  /** The first half of `notifyModelInvalidated`: both neighbour slots take
      the model's neighbour screen-nails, or none when there is no model
      (unless a switch is in flight), and are laid out beside the current
      image. */
  function RefreshNeighbors(s: State, src: ModelView, pos: Position): (r: State)
    ensures !IsSwitching(s.mode) && s.model.Some? ==>
      r.prev.nail == src.prevScreenNail && r.next.nail == src.nextScreenNail &&
      (r.prev.enabled <==> src.prevScreenNail.Some?) &&
      (r.next.enabled <==> src.nextScreenNail.Some?)
    ensures !IsSwitching(s.mode) && s.model.None? ==>
      r.prev.nail.None? && r.next.nail.None? && !r.prev.enabled && !r.next.enabled
    ensures IsSwitching(s.mode) ==> r.prev.nail == s.prev.nail && r.next.nail == s.next.nail
    ensures LaidOut(r, pos)
    ensures r.(prev := s.prev, next := s.next, effects := s.effects) == s
    ensures Extends(s, r) && Commits(r.effects) == Commits(s.effects)
  {
    var prevNail := if s.model.Some? then src.prevScreenNail else None;
    var nextNail := if s.model.Some? then src.nextScreenNail else None;
    var s1 := UpdateScreenNailEntry(s, Previous, prevNail);
    var s2 := UpdateScreenNailEntry(s1, Next, nextNail);
    ExtendsTrans(s, s1, s2);
    LayoutScreenNails(s2, pos)
  }

  /** `notifyModelInvalidated`: both neighbour slots are refreshed from the
      model and laid out, then the current image is refreshed. With no model
      the source goes on to read the absent model's level count in
      `updateLoadingState`, so this path always raises. */
  function NotifyModelInvalidated(s: State, src: ModelView, pos: Position): (r: Result<State, Fault>)
    ensures r.Err? <==> s.model.None?
    ensures r.Ok? && !IsSwitching(s.mode) ==>
      r.value.prev.nail == src.prevScreenNail && r.value.next.nail == src.nextScreenNail &&
      (r.value.prev.enabled <==> src.prevScreenNail.Some?) &&
      (r.value.next.enabled <==> src.nextScreenNail.Some?)
    ensures r.Ok? && IsSwitching(s.mode) ==> r.value.prev.nail == s.prev.nail && r.value.next.nail == s.next.nail
    ensures r.Ok? ==> Extends(s, r.value) && r.value.mode == s.mode
    ensures r.Ok? ==>
      r.value.(prev := s.prev, next := s.next, tileNail := s.tileNail, imageRotation := s.imageRotation,
               loading := s.loading, queue := s.queue, openRect := s.openRect, effects := s.effects) == s
    ensures r.Ok? ==> LaidOut(r.value, pos)
    ensures r.Ok? ==> r.value.tileNail == src.screenNail && r.value.imageRotation == src.imageRotation
    ensures r.Ok? ==>
      && r.value.loading == UpdateLoadingState(s, src).loading
      && r.value.queue == UpdateLoadingState(s, src).queue
      && r.value.openRect == UpdateLoadingState(s, src).openRect
    ensures r.Ok? ==> Commits(r.value.effects) == Commits(s.effects)
    ensures r.Ok? && Inv(s) ==> Inv(r.value)
  {
    if s.model.None? then Err(NullModel)
    else
      var s3 := RefreshNeighbors(s, src, pos);
      assert s3.loading == s.loading && s3.queue == s.queue && s3.openRect == s.openRect;
      assert s3.mode == s.mode && Inv(s3) == Inv(s);
      UpdateLoadingStateFrame(s3, s, src);
      var r := RefreshCurrentImage(s3, src);
      ExtendsTrans(s, s3, r);
      assert r.prev == s3.prev && r.next == s3.next && r.width == s3.width;
      Ok(r)
  }

  /** `notifyModelInvalidated` tells the tile view to re-read the model and
      reports the current image's size to the position controller. */
  lemma ModelInvalidatedReportsImage(s: State, src: ModelView, pos: Position)
    requires s.model.Some?
    ensures var r := NotifyModelInvalidated(s, src, pos).value;
      && |s.effects| <= |r.effects|
      && TileModelInvalidated in r.effects[|s.effects|..]
      && ReportsImageSize(src, r.effects[|s.effects|..])
  {
    var s3 := RefreshNeighbors(s, src, pos);
    var r := RefreshCurrentImage(s3, src);
    assert NotifyModelInvalidated(s, src, pos).value == r;
    SliceWidens(r.effects, |s.effects|, |s3.effects|);
  }

  /** A call found in a later part of a log is found in any part of it
      that starts earlier. */
  lemma SliceWidens(es: seq<Effect>, k: nat, j: nat)
    requires k <= j <= |es|
    ensures forall e :: e in es[j..] ==> e in es[k..]
  {
    assert es[k..] == es[k..j] + es[j..];
  }

  /** `jumpTo`: refused while a transition is active; otherwise forwarded to
      the model. */
  function JumpTo(s: State, index: int): (r: Result<(bool, State), Fault>)
    ensures s.mode != NoTransition ==> r == Ok((false, s))
    ensures s.mode == NoTransition && s.model.None? ==> r == Err(NullModel)
    ensures s.mode == NoTransition && s.model.Some? ==>
      r.Ok? && r.value.0 && r.value.1 == Emit(s, [ModelJumpTo(index)])
    ensures r.Ok? ==> Commits(r.value.1.effects) == Commits(s.effects) + (if r.value.0 then 1 else 0)
  {
    CommitsAppend(s.effects, [ModelJumpTo(index)]);
    CommitsSingle(ModelJumpTo(index));
    if s.mode != NoTransition then Ok((false, s))
    else if s.model.None? then Err(NullModel)
    else Ok((true, Emit(s, [ModelJumpTo(index)])))
  }

  /** `startSlideInAnimation(direction)`: stops any animation and enters the
      slide-in mode for a legal direction; any other direction raises. */
  function StartSlideInAnimation(s: State, direction: int): (r: Result<State, Fault>)
    ensures direction == SLIDE_IN_LEFT ==> r.Ok? && r.value.mode == SlideInLeft
    ensures direction == SLIDE_IN_RIGHT ==> r.Ok? && r.value.mode == SlideInRight
    ensures direction !in {SLIDE_IN_LEFT, SLIDE_IN_RIGHT} ==> r == Err(IllegalDirection(direction))
    ensures r.Ok? ==> r.value.effects == s.effects + [StopAnimation, StartSlideIn(direction)]
    ensures r.Ok? ==> r.value.(mode := s.mode, effects := s.effects) == s
    ensures r.Ok? ==> Commits(r.value.effects) == Commits(s.effects)
  {
    CommitsEmitNone(s.effects, [StopAnimation, StartSlideIn(direction)]);
    var s1 := Emit(s, [StopAnimation]);
    if direction == SLIDE_IN_LEFT then Ok(Emit(s1.(mode := SlideInLeft), [StartSlideIn(direction)]))
    else if direction == SLIDE_IN_RIGHT then Ok(Emit(s1.(mode := SlideInRight), [StartSlideIn(direction)]))
    else Err(IllegalDirection(direction))
  }

  /** `openAnimationStarted`. */
  function OpenAnimationStarted(s: State): (r: State)
    ensures r.mode == OpenAnimation
    ensures r.(mode := s.mode) == s
  {
    s.(mode := OpenAnimation)
  }

  /** `isInTransition`: a switch, a slide-in or the open animation is
      running. */
  predicate IsInTransition(s: State)
    ensures IsInTransition(s) <==> IsSwitching(s.mode) || s.mode in {SlideInLeft, SlideInRight, OpenAnimation}
  {
    s.mode != NoTransition
  }

  /** `pause`: skips the running animation, leaves every transition, frees
      the tile textures and drops both neighbour screen-nails. */
  function Pause(s: State): (r: State)
    ensures r.mode == NoTransition && !IsInTransition(r)
    ensures !r.prev.enabled && !r.next.enabled
    ensures r.prev.nail.None? && r.next.nail.None?
    ensures Owned(r) == NailBag(s.tileNail)
    ensures s.prev.nail.Some? ==> PauseDraw(s.prev.nail.value) in r.effects
    ensures s.next.nail.Some? ==> PauseDraw(s.next.nail.value) in r.effects
    ensures Extends(s, r) && Commits(r.effects) == Commits(s.effects)
    ensures r.loading == s.loading && r.queue == s.queue && r.tileNail == s.tileNail
    ensures r.(prev := s.prev, next := s.next, mode := s.mode, effects := s.effects) == s
    ensures Inv(s) ==> Inv(r)
  {
    var s1 := Emit(s.(mode := NoTransition), [SkipAnimation, FreeTextures]);
    var (p, pp) := UpdateScreenNail(s1.prev, None);
    var (n, np) := UpdateScreenNail(s1.next, None);
    var log := [SkipAnimation, FreeTextures] + PauseOf(pp) + PauseOf(np);
    CommitsAppend(s.effects, log);
    assert Commits(log) == 0 by {
      CommitsAppend([SkipAnimation, FreeTextures] + PauseOf(pp), PauseOf(np));
      CommitsAppend([SkipAnimation, FreeTextures], PauseOf(pp));
    }
    s.(mode := NoTransition, prev := p, next := n, effects := s.effects + log)
  }

  /** `resume`: lets the tile view acquire its textures again. */
  function Resume(s: State): (r: State)
    ensures r.effects == s.effects + [PrepareTextures]
    ensures r.(effects := s.effects) == s
    ensures Commits(r.effects) == Commits(s.effects)
  {
    CommitsEmitNone(s.effects, [PrepareTextures]);
    Emit(s, [PrepareTextures])
  }

  /** `setOpenAnimationRect`. */
  function SetOpenAnimationRect(s: State, rect: Option<Rect>): (r: State)
    ensures r.openRect == rect
    ensures r.(openRect := s.openRect) == s
  {
    s.(openRect := rect)
  }

  /** `retrieveOpenAnimationRect`: read-once; returns the stored rectangle
      and forgets it. */
  function RetrieveOpenAnimationRect(s: State): (r: (Option<Rect>, State))
    ensures r.0 == s.openRect
    ensures r.1.openRect.None?
    ensures r.1 == s.(openRect := None)
  {
    (s.openRect, s.(openRect := None))
  }
}

=== FILE: real_division.dfy ===
/** Small facts about division of reals by a positive divisor, used by the
    progress and interpolation proofs, and `Math.abs` on reals. */
module RealDivision {

  function Abs(x: real): real { if x < 0.0 then -x else x }

  lemma DivUnique(n: real, d: real, q: real)
    requires d > 0.0 && q * d == n
    ensures q == n / d
  {
    var x := n / d;
    assert x * d == n;
    assert (q - x) * d == 0.0;
  }

  lemma DivScale(c: real, a: real, d: real)
    requires d > 0.0
    ensures (c * a) / d == c * (a / d)
  {
    var q := a / d;
    assert q * d == a;
    assert (c * q) * d == c * a;
    DivUnique(c * a, d, c * q);
  }

  lemma DivMono(a: real, b: real, d: real)
    requires d > 0.0 && a <= b
    ensures a / d <= b / d
  {
    var x := a / d;
    var y := b / d;
    assert x * d == a && y * d == b;
    assert (y - x) * d == b - a;
  }

  lemma DivStrict(a: real, b: real, d: real)
    requires d > 0.0 && a < b
    ensures a / d < b / d
  {
    var x := a / d;
    var y := b / d;
    assert x * d == a && y * d == b;
    assert (y - x) * d == b - a;
  }

  /** 0 <= n <= d gives a quotient in [0, 1], with the endpoints exact. */
  lemma DivUnit(n: real, d: real)
    requires d > 0.0
    ensures 0.0 <= n ==> 0.0 <= n / d
    ensures 0.0 < n ==> 0.0 < n / d
    ensures n <= d ==> n / d <= 1.0
    ensures n == d ==> n / d == 1.0
    ensures n == 0.0 ==> n / d == 0.0
  {
    assert 0.0 / d == 0.0;
    assert d / d == 1.0;
    if 0.0 <= n { DivMono(0.0, n, d); }
    if 0.0 < n { DivStrict(0.0, n, d); }
    if n <= d { DivMono(n, d, d); }
  }
}

=== FILE: scenarios.dfy ===
/** Concrete situations the view is built for, stated over the model. */
module Scenarios {
  import opened Outcomes
  import opened MessageQueue
  import opened ScreenNails
  import opened PhotoView
  import opened Gestures
  import opened MoveOut
  import opened Controller

  /** A fast leftward fling on an image shown at its minimal scale, with a
      next image available and nothing in flight, starts the switch to the
      next image and swallows the coming up event. */
  lemma FlingAtMinimalScaleSwitchesNext(s: State, bounds: Position)
    requires s.mode == NoTransition && s.next.enabled && bounds.isMinimal
    ensures var r := OnFling(s, -400.0, 0.0, bounds, false).1;
      r.mode == SwitchNext && r.ignoreUp && Commits(r.effects) == Commits(s.effects)
  {
    assert SwipeFires(s, -400.0, 0.0, bounds);
  }

  /** The matching up event is swallowed: no snap, no `up()`, latch cleared. */
  lemma FlingThenUpIsSwallowed(s: State, bounds: Position)
    requires s.mode == NoTransition && s.next.enabled && bounds.isMinimal
    ensures var f := OnFling(s, -400.0, 0.0, bounds, false).1;
      var u := OnUp(f, bounds);
      && u == f.(ignoreUp := false, effects := f.effects + [EdgeRelease])
      && PositionUp !in u.effects[|f.effects|..]
  {
    FlingAtMinimalScaleSwitchesNext(s, bounds);
    var f := OnFling(s, -400.0, 0.0, bounds, false).1;
    assert OnUp(f, bounds).effects[|f.effects|..] == [EdgeRelease];
  }

  /** Two successive out-of-range pinch steps arm a single cancellation. */
  lemma RepeatedOverscaleArmsOneTimer(s: State)
    requires Inv(s) && s.mode == NoTransition && !s.extraScalingPending
    ensures var t1 := OnScale(s, 0.0, 0.0, Finite(2.0), true).1;
      var t2 := OnScale(t1, 0.0, 0.0, Finite(2.0), true).1;
      && Count(t2.queue, CancelExtraScaling) == 1
      && t2.extraScalingPending
      && Inv(t2)
  {
    var t1 := OnScale(s, 0.0, 0.0, Finite(2.0), true).1;
    OnScaleTimer(s, 0.0, 0.0, Finite(2.0), true);
    OnScaleTimer(t1, 0.0, 0.0, Finite(2.0), true);
  }

  /** A narrow image centred in the view has made no progress out of it. */
  lemma CentredNarrowImage()
    ensures MoveOutProgress(100, 900, 1000) == 0.0
  {
  }

  /** A narrow image already past the right edge: the raw value lies below
      -1 and the tile view's progress is clamped to -1. */
  lemma NarrowImagePastRightEdge()
    ensures MoveOutProgress(1100, 1900, 1000) == -10.0 / 9.0
    ensures TileProgress(1100, 1900, 1000) == -1.0
  {
  }

  /** The loading transitions listed beside `updateLoadingState` omit one the
      code takes: a COMPLETE image whose content goes away and whose load
      failed moves straight to FAIL. */
  lemma CompleteCanFail(s: State, src: ModelView)
    requires s.loading == Complete && !HasContent(src) && src.failedToLoad
    ensures UpdateLoadingState(s, src).loading == Fail
  {
  }

  /** The open-animation rectangle is read once. */
  lemma OpenRectReadOnce(s: State, rect: Rect)
    ensures var (first, t) := RetrieveOpenAnimationRect(SetOpenAnimationRect(s, Some(rect)));
      first == Some(rect) && RetrieveOpenAnimationRect(t).0.None?
  {
  }

  /** A run whose first call succeeds continues from that call's result. */
  lemma RunFirst(s: State, e: Event, es: seq<Event>)
    requires Enabled(s, e) && Step(s, e).Ok?
    ensures Run(s, [e] + es) == Run(Step(s, e).value, es)
  {
    assert ([e] + es)[1..] == es;
  }

  /** A newly attached model with no content yet: the view waits in INIT
      with one SHOW_LOADING pending, and still holds the open-animation
      rectangle. */
  lemma WaitingForContent(width: int, rect: Rect, src: ModelView, bounds: Position)
    requires !HasContent(src) && !src.failedToLoad
    ensures var t := NotifyModelInvalidated(SetModel(SetOpenAnimationRect(Initial(width), Some(rect)), Some(0)), src, bounds);
      && t.Ok? && t.value.loading == Init
      && Message(ShowLoading, DELAY_SHOW_LOADING) in t.value.queue
      && t.value.openRect == Some(rect)
  {
    var s2 := SetModel(SetOpenAnimationRect(Initial(width), Some(rect)), Some(0));
    assert s2.loading == Complete && s2.openRect == Some(rect) && s2.model.Some?;
  }

  /** When the pending SHOW_LOADING fires in that state, the spinner starts
      and the open animation is dropped. */
  lemma SpinnerAfterDelay(s: State)
    requires s.loading == Init && Message(ShowLoading, DELAY_SHOW_LOADING) in s.queue
    ensures var t := Run(s, [Host(Deliver(Message(ShowLoading, DELAY_SHOW_LOADING)))]);
      && t.Some? && t.value.loading == Timeout && t.value.openRect.None?
      && t.value.effects == s.effects + [SpinnerStart]
  {
    var m := Message(ShowLoading, DELAY_SHOW_LOADING);
    RunFirst(s, Host(Deliver(m)), []);
  }
}

=== FILE: screen_nails.dfy ===
/** A neighbour slot (`ScreenNailEntry`): the previous or next image's
    screen-nail, its fit-to-screen draw size, rotation and laid-out position. */
module ScreenNails {
  import opened Outcomes
  import opened Geometry

  /** A screen-nail handle. `drawWidth`/`drawHeight` are the size the slot
      draws it at, which the source derives from the position controller's
      fit-to-screen scale; here they come with the handle. */
  datatype ScreenNail = ScreenNail(id: nat, rotation: int, drawWidth: int, drawHeight: int)

  datatype Entry = Entry(
    visible: bool,
    enabled: bool,
    drawWidth: int,
    drawHeight: int,
    offsetX: int,
    rotation: int,
    nail: Option<ScreenNail>)

  /** A freshly constructed entry: disabled, owning nothing. */
  const EmptyEntry: Entry := Entry(false, false, 0, 0, 0, 0, None)

  /** Width the entry occupies on screen once its rotation is applied. */
  function RotatedWidth(e: Entry): int
  {
    GetRotated(e.rotation, e.drawWidth, e.drawHeight)
  }

  /** Screen x of the right edge of a slot laid out by its centre `offsetX`,
      with half the width rounded toward zero as the layout computes it. */
  function RightEdge(e: Entry): int
  {
    e.offsetX + JavaDiv(RotatedWidth(e), 2)
  }

  /** Screen x of the left edge of a slot laid out by its centre `offsetX`,
      with half the width rounded toward zero as the layout computes it. */
  function LeftEdge(e: Entry): int
  {
    e.offsetX - JavaDiv(RotatedWidth(e), 2)
  }

  /** `updateScreenNail`: the entry now holds `n` and is enabled exactly when
      `n` is present. Also returns the screen-nail it stopped drawing
      (`pauseDraw`), if any. Rotation and draw size follow a newly taken
      handle; layout is untouched. */
  function UpdateScreenNail(e: Entry, n: Option<ScreenNail>): (r: (Entry, Option<ScreenNail>))
    ensures r.0.enabled <==> n.Some?
    ensures r.0.nail == n
    ensures r.1.Some? <==> e.nail.Some? && e.nail != n
    ensures r.1.Some? ==> r.1 == e.nail
    ensures n.Some? && n != e.nail ==>
      r.0.rotation == n.value.rotation &&
      r.0.drawWidth == n.value.drawWidth && r.0.drawHeight == n.value.drawHeight
    ensures n.None? || n == e.nail ==>
      r.0.rotation == e.rotation && r.0.drawWidth == e.drawWidth && r.0.drawHeight == e.drawHeight
    ensures r.0.visible == e.visible && r.0.offsetX == e.offsetX
  {
    var e1 := e.(enabled := n.Some?);
    if e.nail == n then (e1, None)
    else
      var paused := e.nail;
      match n
      case None => (e1.(nail := None), paused)
      case Some(sn) =>
        (e1.(nail := n, rotation := sn.rotation,
             drawWidth := sn.drawWidth, drawHeight := sn.drawHeight), paused)
  }

  /** `releaseScreenNail`: hands the held screen-nail to the caller and keeps
      no reference; every other field, including `enabled`, is kept. */
  function ReleaseScreenNail(e: Entry): (r: (Entry, Option<ScreenNail>))
    ensures r.1 == e.nail
    ensures r.0.nail.None?
    ensures r.0.(nail := e.nail) == e
  {
    (e.(nail := None), e.nail)
  }

  /** `layoutRightEdgeAt(x)`: places the slot so that its right edge is at `x`;
      it is visible exactly when that edge is inside the view (x > 0). */
  function LayoutRightEdgeAt(e: Entry, x: int): (r: Entry)
    ensures RightEdge(r) == x
    ensures r.visible <==> x > 0
    ensures r.(visible := e.visible, offsetX := e.offsetX) == e
  {
    e.(visible := x > 0, offsetX := x - JavaDiv(RotatedWidth(e), 2))
  }

  /** `layoutLeftEdgeAt(x)`: places the slot so that its left edge is at `x`;
      it is visible exactly when that edge is left of the view's right side. */
  function LayoutLeftEdgeAt(e: Entry, x: int, viewWidth: int): (r: Entry)
    ensures LeftEdge(r) == x
    ensures r.visible <==> x < viewWidth
    ensures r.(visible := e.visible, offsetX := e.offsetX) == e
  {
    e.(visible := x < viewWidth, offsetX := x + JavaDiv(RotatedWidth(e), 2))
  }

  /** `ScreenNailEntry.gapToSide`: the slot's own centring gap, computed from
      its width on screen after rotation. */
  function EntryGapToSide(e: Entry, viewWidth: int): (g: int)
    ensures g >= 0
    ensures g == GapToSide(RotatedWidth(e), viewWidth)
  {
    if IsRotated90Family(e.rotation) then GapToSide(e.drawHeight, viewWidth)
    else GapToSide(e.drawWidth, viewWidth)
  }
}
